=== FILE: README.md ===
# LeChacal serial-to-MQTT bridge: a Dafny model of the decode-and-publish path

The bridge reads lines of readings from an RPICT energy monitor on a serial
port. It publishes each reading to an MQTT broker under Home Assistant's
discovery conventions. This project models the bridge's pure core in Dafny
and proves properties of that model:

- the line tokenizer `data.split(/[ ,]+/)`;
- the per-line loop, in which every field of the device mapping is decoded
  from the token at its own position inside its own try/catch;
- `parseDataFromTemplateParams`, with JavaScript's `parseFloat`, `parseInt`,
  `Number.prototype.toFixed` and `Number::toString` (ECMA-262 sections
  19.2.4, 19.2.5, 21.1.3.3 and 6.1.6.1.20) modelled on exact decimals;
- the discovery, reading and availability messages, each a
  `Publish(topic, payload, retain)` record;
- the arrival timestamp, the `receivedSerialData` flag and the one-shot
  availability check, as a small state machine driven by events;
- the configuration object, as a function of the environment.

Modules, one per file:

| module | file | models |
|---|---|---|
| `Wrappers` | wrappers.dfy | `Option` |
| `Digits` | digits.dfy | digit strings and their values |
| `Numbers` | numbers.dfy | exact decimals, JS numbers (NaN, finite, ±Infinity), `<`, unary minus, thrown exceptions |
| `JsParse` | js_parse.dfy | `parseInt`, `parseFloat`, `${undefined}` |
| `JsFormat` | js_format.dfy | `toFixed` and `Number::toString` |
| `Config` | config.dfy | src/config/index.js |
| `Tokenizer` | tokenizer.dfy | `split(/[ ,]+/)` |
| `FieldDecoder` | field_decoder.dfy | `parseDataFromTemplateParams` |
| `Publisher` | publisher.dfy | `createHASensor`, `pushHASensorData`, `createHASensors`, the availability message |
| `Bridge` | bridge.dfy | the `data` handler, `updateAvailability`, the event loop |

The model follows the code, including these behaviours:

- Tabs do not separate values. The regular expression has only space and
  comma, although a comment beside it mentions tabs.
- Discovery messages are published from the `connect` handler
  (src/server.js:20-22).
- The availability check is one `setTimeout`, five minutes after start-up
  (src/server.js:201).
- A field that throws is logged and skipped, and the loop moves on to the
  next field (src/server.js:62-69).

Behaviours of the code that the model keeps on purpose:

- `FRACTION_DIGITS=0` yields 2 decimals, because `0 || 2` is 2.
- `INVERT_NEGATIVE_VALUES=false` turns inversion on, because the setting is
  the raw, truthy string.
- A fraction-digit count outside 0..100 makes every float field throw a
  RangeError inside `toFixed`.
- A missing token reaches a text field as `undefined` and is published as
  the text "undefined".

Clock readings (`new Date().getTime()`) are parameters of the events, and the
one `setTimeout` is a `CheckTimer` event. A publish is a returned record, not
an effect. Every model function is deterministic, so building the same
discovery payload twice gives the same text by construction.

## Model

| member | source | states |
|---|---|---|
| Tokenizer.Split | src/server.js:57 | there is always at least one token, and no token contains a space or a comma |
| Tokenizer.SplitReassembles | src/server.js:57 | the tokens and the separator runs between them form a segmentation: tokens are separator-free, runs are non-empty and all separators, only the first and last token may be empty, and interleaving them gives back the line |
| Tokenizer.SplitUnique | src/server.js:57 | conversely, a line assembled from any such segmentation splits into exactly those tokens, so the split is the unique segmentation at maximal runs |
| Tokenizer.SplitByMatcher | src/server.js:57 | the scanning loop of the regular-expression split (emit the text before each match, resume after it, emit the tail) yields exactly the segmentation |
| Tokenizer.SplitJoin | src/server.js:57 | non-empty separator-free values joined by single spaces split back into the same values |
| Tokenizer.TabIsNotSeparator | src/server.js:56-57 | two values separated by a tab stay one token, while the same values separated by a space give two tokens |
| Tokenizer.LeadingSeparatorShifts | src/server.js:57 | a line starting with a space or comma has an empty first token, followed by the tokens of the rest |
| Bridge.LeadingSeparatorShiftsFields | src/server.js:57-64 | with a leading separator, field 0 reads "" and field i + 1 reads the token field i would otherwise read |
| Bridge.HandleLine | src/server.js:57-69 | the handler loop, which advances `count` after every try/catch, publishes what the reference definition does: the messages of the fields that did not throw, in mapping order, field i reading token i |
| Bridge.FieldReadsOwnToken | src/server.js:58-69 | field i is decoded from token i whatever happened to earlier fields, and its message directly follows those of the earlier fields that succeeded |
| Bridge.EveryFieldPublishes | src/server.js:58-69 | with a usable digit count no field throws, so message i belongs to field i: it carries the value decoded from token i and goes to that field's state topic |
| Bridge.FloatFieldsSkipped | src/server.js:62-68 | with a digit count outside 0..100, a field throws exactly when it is a float field |
| Bridge.ExtraTokensIgnored | src/server.js:62-69 | two lines whose first tokens (one per mapping field) agree publish the same messages, so tokens past the mapping are never read |
| Bridge.JoinedLineFields | src/server.js:57-69 | for readings joined by spaces, message i is field i's state-topic message carrying the decoding of reading i |
| Bridge.ReadingEchoed | src/server.js:62-64 | a float reading sent in Number::toString form with the configured decimals comes out on its field's topic as the same text, unretained |
| FieldDecoder.DecodeField | src/server.js:79-142 | throws iff the tag is "float" and the digit count is outside 0..100; a numeric result is never NaN and is 0 or at least the threshold (and not negative when the threshold is not); any other tag returns the token, or undefined when it is missing |
| FieldDecoder.Settle | src/server.js:92-106 | after NaN→0, inversion and thresholding the value is a number that is 0 or not below the threshold, and not negative when the threshold is not negative |
| FieldDecoder.SettleFinite | src/server.js:98-106 | on exact values: the magnitude when the value is negative and inversion is on, then 0 if that is below the threshold |
| FieldDecoder.SettleNaN | src/server.js:92-95 | NaN is replaced by 0 whatever the settings |
| FieldDecoder.InversionKeepsNonNegative | src/server.js:98-101 | inversion leaves a value that is not negative unchanged |
| FieldDecoder.SettleKeepsReading | src/server.js:98-106 | a reading not below 0 nor the threshold is published unchanged |
| FieldDecoder.SmallNegativeIsZero | src/server.js:98-106 | a negative reading whose magnitude is below the threshold becomes 0, inverted or not |
| FieldDecoder.NaNTokenReadsZero | src/server.js:85-119 | a numeric field whose token its parser reads as NaN (parseFloat for float, parseInt for integer; a missing token is the text "undefined") publishes 0; only a float field needs a usable digit count |
| FieldDecoder.UnreadableReadsZero | src/server.js:88-119 | in particular a numeric field whose token is missing or cannot begin a number publishes 0, an integer field whatever the digit count |
| FieldDecoder.InvertedBelowThreshold | src/server.js:88-106 | a negative float token such as "-3.0", written with at most the configured number of decimals and with a magnitude below the threshold, gives 0 even with inversion on, because inversion precedes the threshold |
| FieldDecoder.ReadsLeadingInteger | src/server.js:113-130 | an integer field reads the leading decimal integer of its token and ignores what follows ("7.9" is 7, "12abc" is 12) |
| FieldDecoder.DecodeFloatExact | src/server.js:85-108 | a float token with exactly the configured decimals, not below 0 or the threshold, decodes to its exact value |
| FieldDecoder.FloatEchoesToken | src/server.js:85-108 | a float token already in Number::toString form with the configured decimals ("208.6" with one) is published as the same text |
| FieldDecoder.MissingTokenIsUndefined | src/server.js:133-137 | a text field with no token decodes to undefined and is published as "undefined" |
| JsParse.ParseInt | src/server.js:113 | the result is NaN or a whole number; what it reads is stated by ParseIntPrefix (decimal digits then a non-digit rest), ParseIntNoDigits (nothing to read gives NaN) and IntSettingFromText |
| JsParse.ParseFloat | src/server.js:88 | a finite result is negative only when the text after the leading white space starts with "-", and positive only when it does not; an infinite result is negative iff that "-" is there; blank input is NaN. What it reads is stated by ParsePointDecimal and ParseFloatNegative, and NumberToStringRoundTrip shows it inverts Number::toString |
| JsParse.ParseIntPrefix | src/server.js:113 | parseInt of an optional "-", the digits of n and a non-digit rest is ±n; a lone 0 followed by x or X is kept out, since it starts a hexadecimal number instead |
| JsParse.ParsePointDecimal | src/server.js:88 | parseFloat of "digits.digits" is the digit string's value scaled down by the fraction length |
| JsFormat.ToFixed | src/server.js:88 | toFixed throws a RangeError iff the digit count is outside 0..100; NaN and infinities are unchanged; finite stays finite |
| JsFormat.RoundedUnitsNearest | src/server.js:88 | the chosen count of 10^-f units is nearest to the exact magnitude, and of two equally near it is the larger one |
| JsFormat.RoundToSymmetric | src/server.js:88 | rounding acts on the magnitude, so it commutes with negation and ties go away from zero |
| JsFormat.ToFixedExact | src/server.js:88 | a number with at most f decimals keeps its value under toFixed(f) |
| JsFormat.NumberToString | src/server.js:175 | the text is never empty, and for a finite number it starts with "-" iff the number is negative; NumberToStringRoundTrip is its partner, showing parseFloat reads the text back as the same number |
| JsFormat.NumberToStringRoundTrip | src/server.js:175 | parseFloat reads back exactly the number `${x}` printed, for NaN, both infinities and every finite x |
| JsFormat.PointTextRoundTrip | src/server.js:175 | text in Number::toString's plain form with k decimals is parsed to that number and printed back as the same text |
| Publisher.IndexFrom | src/server.js:157 | finds the first occurrence at or after k, or reports that none exists |
| Publisher.ReplaceFirstSplits | src/server.js:157 | `replace` with a string pattern removes only the first occurrence and keeps the text around it |
| Publisher.ReplaceFirstAbsent | src/server.js:157 | a text without the pattern is left unchanged |
| Publisher.ModelNameDropsExtension | src/server.js:157 | a mapping file named base + ".json", with no "." in base (the default "RPICT7V1.json" among them), is shown as model base |
| Publisher.CreateSensor | src/server.js:144-171 | the discovery message is retained and goes to the sensor's state topic followed by "/config"; DiscoveryConsistent states what its payload names |
| Publisher.DataPublish | src/server.js:173-177 | a reading is published unretained; its topic is the state topic that DiscoveryConsistent finds in the discovery payload |
| FieldDecoder.Stringify | src/server.js:175 | `${value}` gives a text field's token unchanged and "undefined" for a missing token; a number is printed by NumberToString, whose row states what that text is |
| Publisher.ConfigTopicExtendsStateTopic | src/server.js:146-150 | the discovery topic is the state topic followed by "/config" |
| Publisher.DiscoveryConsistent | src/server.js:144-177 | the discovery payload names the state topic that readings go to, the unique id `${identifier}_${name}` and the topic of the online/offline messages; its own topic is the reading topic plus "/config" |
| Publisher.MissingUnitAndIcon | src/server.js:147-151 | a mapping entry without unit or icon is announced with unit "undefined" and icon "mdi:undefined" |
| Publisher.CreateSensors | src/server.js:179-187 | one retained discovery message per mapping field, in order, each on that field's config topic and carrying that field's discovery payload, then an unconditional "online" |
| Publisher.AnnouncedSensorsConsistent | src/server.js:144-187 | every discovery message sent on connect names its field's reading topic and the topic of the "online" message sent with it, and sits on the reading topic plus "/config" |
| Bridge.AvailabilityAt | src/server.js:189-199 | the availability message is "online" iff less than 300000 ms have passed since the last arrival, and "offline" otherwise |
| Bridge.Step | src/server.js:20-201 | a line records its arrival time and the data flag and publishes that line's field messages; connect publishes the discovery messages and "online" and changes no state; the first timer publishes the availability verdict for the last arrival and clears the pending check; a later timer publishes nothing |
| Bridge.ConnectAnnouncesOnline | src/server.js:179-187 | connecting always ends with "online", whatever the state and however old the last arrival |
| Bridge.FailedLineStillArrives | src/server.js:58-69 | a line whose every field throws publishes nothing but still records its arrival |
| Bridge.LastArrivalRecorded | src/server.js:59 | after a run, the recorded time is that of the latest line received |
| Bridge.ReceivedSerialDataOnce | src/server.js:71-74 | the data flag is set after a run iff it was set before or some line arrived, so it never goes back to false |
| Bridge.CheckScheduledOnce | src/server.js:201 | the availability check is still pending after a run iff it was pending and no timer fired |
| Bridge.NoDataMeansOffline | src/server.js:49 | with no line received, the first check at any clock reading of five minutes or more reports "offline" |
| Bridge.LastLineDecidesAvailability | src/server.js:189-201 | after a run that leaves the check pending, the check publishes exactly one message, "online" iff the run's last line arrived less than 300000 ms earlier, "offline" otherwise |
| Config.StringOr | src/config/index.js:2 | a set, non-empty variable is used as is; an unset or empty one gives the default |
| Config.IntOr | src/config/index.js:4 | the parseInt value of the variable, or the default when that is NaN or 0 |
| Config.FlagOr | src/config/index.js:7 | the flag is truthy iff the variable is set and non-empty, and then it is the raw text |
| Config.Load | src/config/index.js:1-14 | neither the digit count nor the baud rate is ever 0; string settings are never empty; the MQTT credentials are passed through as given, unset when unset; inversion is on iff INVERT_NEGATIVE_VALUES is set and non-empty |
| Config.EmptyEnvironmentDefaults | src/config/index.js:1-14 | an empty environment gives every documented default |
| Config.IntSettingFromText | src/config/index.js:8 | an integer setting written in decimal is the leading integer of its text ("2.5" is 2), and 0 falls back to the default; a lone 0 followed by x or X is kept out, since it starts a hexadecimal number instead |
| Config.ZeroFractionDigitsIgnored | src/config/index.js:6 | FRACTION_DIGITS=0 yields 2 decimals |
| Config.FalseTextEnablesInversion | src/config/index.js:7 | INVERT_NEGATIVE_VALUES=false turns inversion on |
| Config.EmptyLikeUnset | src/config/index.js:1-14 | setting any defaulted variable to "" is the same as leaving it unset |

## Left out

- Serial port opening, piping and the Readline parser (src/server.js:31-47): device I/O. A line arrives as a `LineReceived` event. The `process.exit(1)` on a failed open is not modelled.
- The MQTT client, its connection options and event wiring (src/server.js:7-23): broker library. `connect` is the `Connected` event, and publishing only returns records.
- Logging (src/log, every `log.*` call): no behaviour to verify.
- Loading the device mapping with `require` (src/server.js:25-29): the mapping is a sequence of `FieldSpec(name, type, unit, icon)` in key order. JavaScript's placement of integer-like keys first in `Object.keys` is not modelled.
- Binary floating point: numbers are exact decimals. Results that depend on double rounding are not modelled. Examples are `(1.005).toFixed(2)`, `-0` and the loss of digits past 2^53 in `parseInt`. Range overflow and underflow are not modelled either: `parseFloat("1e400")` is Infinity in JavaScript and is published as "Infinity", while the model keeps 10^400 and prints "1e+400"; `parseFloat("1e-400")` is 0 in JavaScript but a nonzero decimal here.
- JsFormat.ToFixed: a finite number of magnitude 10^21 or more is returned unchanged and not rounded. This matches the step of toFixed that prints such a number with Number::toString.
- JSON well-formedness of the discovery payload (src/server.js:147-166): the payload is modelled as the interpolated text. No property is claimed about it being valid JSON, and names or units containing quotes are not escaped.
- Wall-clock reads and timer scheduling (src/server.js:59, 190, 201) are event parameters. The time between events is not modelled.

=== FILE: bridge.dfy ===
/**
 * The serial `data` handler of src/server.js and the bridge's life around
 * it: each line is split, every field of the device mapping is decoded
 * from the token at its own position inside its own try/catch, and the
 * arrival time and the "data seen" flag are recorded.  The one-shot
 * availability check and the connect handler complete the events the
 * bridge reacts to.  Clock readings are event parameters.
 */
module Bridge {
  import opened Wrappers
  import opened Numbers
  import opened Config
  import opened Tokenizer
  import opened FieldDecoder
  import opened Publisher

  /** `values[count]`: the token at index i, or undefined past the end of the line. */
  function TokenAt(tokens: seq<string>, i: nat): (t: Option<string>)
    ensures t.Some? <==> i < |tokens|
    ensures t.Some? ==> t.value == tokens[i]
  {
    if i < |tokens| then Some(tokens[i]) else None
  }

  /** The try block of one field: its publish, or the exception the catch block logs and drops. */
  function FieldOutcome(cfg: Config, spec: FieldSpec, token: Option<string>): (r: Completion<Publish>)
    ensures r.Normal? ==> r.value.topic == StateTopic(cfg, spec.name)
  {
    match DecodeField(cfg, spec.typeTag, token)
    case Throw(e) => Throw(e)
    case Normal(v) => Normal(DataPublish(cfg, spec.name, v))
  }

  /** The outcome of every field, field i paired with token i. */
  function Outcomes(cfg: Config, schema: seq<FieldSpec>, tokens: seq<string>): (os: seq<Completion<Publish>>)
    ensures |os| == |schema|
    ensures forall i | 0 <= i < |schema| :: os[i] == FieldOutcome(cfg, schema[i], TokenAt(tokens, i))
  {
    seq(|schema|, i requires 0 <= i < |schema| => FieldOutcome(cfg, schema[i], TokenAt(tokens, i)))
  }

  /** The messages of the outcomes that completed normally, in order. */
  function Successes(os: seq<Completion<Publish>>): (ps: seq<Publish>)
    ensures |ps| <= |os|
  {
    if |os| == 0 then []
    else
      var last := os[|os| - 1];
      Successes(os[..|os| - 1]) + (if last.Normal? then [last.value] else [])
  }

  /** Everything the `data` handler publishes for one line. */
  function LinePublishes(cfg: Config, schema: seq<FieldSpec>, line: string): seq<Publish>
  {
    Successes(Outcomes(cfg, schema, Split(line)))
  }

  /**
   * The handler's loop: `count` walks the tokens beside the forEach over
   * the mapping keys and is incremented after the try/catch, so a field
   * that throws publishes nothing and the next field still reads the next
   * token.
   */
  method HandleLine(cfg: Config, schema: seq<FieldSpec>, line: string) returns (published: seq<Publish>)
    ensures published == LinePublishes(cfg, schema, line)
  {
    var values := SplitByMatcher(line);
    ghost var os := Outcomes(cfg, schema, values);
    published := [];
    var count := 0;
    for k := 0 to |schema|
      invariant count == k
      invariant published == Successes(os[..k])
    {
      var outcome := FieldOutcome(cfg, schema[k], TokenAt(values, count));
      assert outcome == os[k];
      SuccessesStep(os, k);
      if outcome.Normal? {
        published := published + [outcome.value];
      }
      count := count + 1;
    }
    assert os[..|schema|] == os;
  }

  /** Extending a prefix of outcomes by one keeps the earlier messages. */
  lemma SuccessesStep(os: seq<Completion<Publish>>, k: nat)
    requires k < |os|
    ensures Successes(os[..k + 1]) == Successes(os[..k]) + (if os[k].Normal? then [os[k].value] else [])
  {
    assert os[..k + 1][..k] == os[..k];
  }

  lemma {:induction false} SuccessesAppend(a: seq<Completion<Publish>>, b: seq<Completion<Publish>>)
    ensures Successes(a + b) == Successes(a) + Successes(b)
    decreases |b|
  {
    if |b| == 0 {
      assert a + b == a;
    } else {
      var ab := a + b;
      assert ab[..|ab| - 1] == a + b[..|b| - 1];
      assert ab[|ab| - 1] == b[|b| - 1];
      SuccessesAppend(a, b[..|b| - 1]);
    }
  }

  /**
   * Outcome i that completed is published right after the messages of the
   * earlier outcomes that completed: failures before it do not move it
   * onto another field's message.
   */
  lemma SuccessAt(os: seq<Completion<Publish>>, i: nat)
    requires i < |os| && os[i].Normal?
    ensures |Successes(os[..i])| < |Successes(os)|
    ensures Successes(os)[|Successes(os[..i])|] == os[i].value
  {
    assert os == os[..i] + ([os[i]] + os[i + 1..]);
    SuccessesAppend(os[..i], [os[i]] + os[i + 1..]);
    SuccessesAppend([os[i]], os[i + 1..]);
    assert [os[i]][..0] == [];
  }

  /** When no outcome fails, message i is outcome i. */
  lemma {:induction false} AllSucceed(os: seq<Completion<Publish>>)
    requires forall i | 0 <= i < |os| :: os[i].Normal?
    ensures |Successes(os)| == |os|
    ensures forall i | 0 <= i < |os| :: Successes(os)[i] == os[i].value
    decreases |os|
  {
    if |os| > 0 {
      var init := os[..|os| - 1];
      AllSucceed(init);
    }
  }

  /**
   * Field i of the mapping is decoded from token i of the line whatever
   * happened to the fields before it; when it does not throw, its message
   * follows those of the earlier fields that did not throw.
   */
  lemma FieldReadsOwnToken(cfg: Config, schema: seq<FieldSpec>, line: string, i: nat)
    requires i < |schema|
    requires DecodeField(cfg, schema[i].typeTag, TokenAt(Split(line), i)).Normal?
    ensures var os := Outcomes(cfg, schema, Split(line));
            var position := |Successes(os[..i])|;
            position < |LinePublishes(cfg, schema, line)|
            && LinePublishes(cfg, schema, line)[position]
               == DataPublish(cfg, schema[i].name, DecodeField(cfg, schema[i].typeTag, TokenAt(Split(line), i)).value)
  {
    SuccessAt(Outcomes(cfg, schema, Split(line)), i);
  }

  /**
   * With a usable digit count no field throws, so field i of the mapping
   * produces message i: the value decoded from token i, on its own state topic.
   */
  lemma EveryFieldPublishes(cfg: Config, schema: seq<FieldSpec>, line: string)
    requires 0 <= cfg.fractionDigits <= 100
    ensures |LinePublishes(cfg, schema, line)| == |schema|
    ensures forall i | 0 <= i < |schema| ::
              LinePublishes(cfg, schema, line)[i].topic == StateTopic(cfg, schema[i].name)
    ensures forall i | 0 <= i < |schema| ::
              LinePublishes(cfg, schema, line)[i]
              == DataPublish(cfg, schema[i].name, DecodeField(cfg, schema[i].typeTag, TokenAt(Split(line), i)).value)
  {
    var os := Outcomes(cfg, schema, Split(line));
    AllSucceed(os);
  }

  /**
   * With a digit count outside 0..100 every float field throws and is
   * skipped; the others keep their own tokens, so the line yields one
   * message per non-float field.
   */
  lemma FloatFieldsSkipped(cfg: Config, schema: seq<FieldSpec>, line: string, i: nat)
    requires cfg.fractionDigits < 0 || cfg.fractionDigits > 100
    requires i < |schema|
    ensures Outcomes(cfg, schema, Split(line))[i].Throw? <==> schema[i].typeTag == Some("float")
  {
  }

  /** Tokens past the last field are never read: only the first |schema| tokens matter. */
  lemma ExtraTokensIgnored(cfg: Config, schema: seq<FieldSpec>, line1: string, line2: string)
    requires forall i: nat | i < |schema| :: TokenAt(Split(line1), i) == TokenAt(Split(line2), i)
    ensures LinePublishes(cfg, schema, line1) == LinePublishes(cfg, schema, line2)
  {
    var os1, os2 := Outcomes(cfg, schema, Split(line1)), Outcomes(cfg, schema, Split(line2));
    forall i | 0 <= i < |schema|
      ensures os1[i] == os2[i]
    {
      assert TokenAt(Split(line1), i) == TokenAt(Split(line2), i);
    }
    assert os1 == os2;
  }

  /**
   * A line that starts with a separator has an empty first token, so field
   * 0 reads "" and field i + 1 reads the token field i would have read.
   */
  lemma {:induction false} LeadingSeparatorShiftsFields(c: char, line: string, i: nat)
    requires IsSeparator(c) && (|line| == 0 || !IsSeparator(line[0]))
    ensures TokenAt(Split([c] + line), 0) == Some("")
    ensures TokenAt(Split([c] + line), i + 1) == TokenAt(Split(line), i)
  {
    LeadingSeparatorShifts(c, line);
  }

  /**
   * A line of non-empty readings joined by single spaces, with a usable
   * digit count: field i publishes, on its own topic, the decoding of
   * reading i.
   */
  lemma JoinedLineFields(cfg: Config, schema: seq<FieldSpec>, tokens: seq<string>, i: nat)
    requires 0 <= cfg.fractionDigits <= 100
    requires |tokens| >= 1 && forall t <- tokens :: |t| > 0 && NoSeparator(t)
    requires i < |schema| && i < |tokens|
    ensures |LinePublishes(cfg, schema, Join(tokens, " "))| == |schema|
    ensures LinePublishes(cfg, schema, Join(tokens, " "))[i]
            == DataPublish(cfg, schema[i].name, DecodeField(cfg, schema[i].typeTag, Some(tokens[i])).value)
  {
    SplitJoin(tokens);
    var os := Outcomes(cfg, schema, tokens);
    forall j | 0 <= j < |os|
      ensures os[j].Normal?
    {
      assert DecodeField(cfg, schema[j].typeTag, TokenAt(tokens, j)).Normal?;
    }
    AllSucceed(os);
  }

  /**
   * End to end: a float reading sent the way Number::toString prints it,
   * with the configured number of decimals (say "208.6" with one), comes
   * out on its field's topic as the same text.
   */
  lemma ReadingEchoed(cfg: Config, schema: seq<FieldSpec>, tokens: seq<string>, i: nat, m: nat)
    requires |tokens| >= 1 && forall t <- tokens :: |t| > 0 && NoSeparator(t)
    requires i < |schema| && i < |tokens| && schema[i].typeTag == Some("float")
    requires m % 10 != 0
    requires var digits := Digits.FromNat(m);
             0 < cfg.fractionDigits <= 100 && cfg.fractionDigits < |digits| && |digits| - cfg.fractionDigits <= 21
             && tokens[i] == digits[..|digits| - cfg.fractionDigits] + "." + digits[|digits| - cfg.fractionDigits..]
    requires !LessThan(Finite(Decimal(m, -cfg.fractionDigits)), cfg.sensorValueThreshold)
    ensures i < |LinePublishes(cfg, schema, Join(tokens, " "))|
    ensures LinePublishes(cfg, schema, Join(tokens, " "))[i] == Publish(StateTopic(cfg, schema[i].name), tokens[i], false)
  {
    JoinedLineFields(cfg, schema, tokens, i);
    FloatEchoesToken(cfg, m, tokens[i]);
  }

  // ---------------------------------------------------------------------
  // Arrivals and availability

  /**
   * The handler-visible state: `lastDataReceived` (ms), `receivedSerialData`,
   * and whether the single `setTimeout(updateAvailability, …)` has yet to fire.
   */
  datatype BridgeState = BridgeState(lastDataReceived: int, receivedSerialData: bool, checkPending: bool)

  /** At start-up no data has arrived, the timestamp is 0 and the check is scheduled. */
  const Initial := BridgeState(0, false, true)

  /** `1000 * 60 * 5`: data younger than five minutes counts as online. */
  const AvailabilityWindow: int := 1000 * 60 * 5

  /** What the bridge reacts to; times are `new Date().getTime()` readings in ms. */
  datatype Event = Connected | LineReceived(time: int, line: string) | CheckTimer(time: int)

  /** updateAvailability at time now: online exactly when the last arrival is less than five minutes old. */
  function AvailabilityAt(cfg: Config, lastDataReceived: int, now: int): (p: Publish)
    ensures p.topic == AvailabilityTopic(cfg)
    ensures p.payload == "online" <==> now - lastDataReceived < 300000
    ensures p.payload == "offline" <==> now - lastDataReceived >= 300000
  {
    AvailabilityPublish(cfg, now - lastDataReceived < AvailabilityWindow)
  }

  /** One event: its effect on the state and the messages it publishes. */
  function Step(cfg: Config, schema: seq<FieldSpec>, s: BridgeState, e: Event): (r: (BridgeState, seq<Publish>))
    ensures e.LineReceived? ==> r.0.lastDataReceived == e.time && r.0.receivedSerialData
    ensures !e.LineReceived? ==> r.0.lastDataReceived == s.lastDataReceived
                                 && r.0.receivedSerialData == s.receivedSerialData
    ensures r.0.checkPending <==> s.checkPending && !e.CheckTimer?
    ensures e.CheckTimer? && !s.checkPending ==> r.1 == []
    ensures e.CheckTimer? && s.checkPending ==> r.1 == [AvailabilityAt(cfg, s.lastDataReceived, e.time)]
    ensures e.LineReceived? ==> r.1 == LinePublishes(cfg, schema, e.line)
    ensures e.Connected? ==> r.1 == CreateSensors(cfg, schema)
  {
    match e
    case Connected => (s, CreateSensors(cfg, schema))
    case LineReceived(t, line) =>
      (s.(lastDataReceived := t, receivedSerialData := true), LinePublishes(cfg, schema, line))
    case CheckTimer(now) =>
      if s.checkPending then (s.(checkPending := false), [AvailabilityAt(cfg, s.lastDataReceived, now)])
      else (s, [])
  }

  /** A sequence of events from state s: the final state and all messages, in order. */
  function Run(cfg: Config, schema: seq<FieldSpec>, s: BridgeState, events: seq<Event>): (BridgeState, seq<Publish>)
    decreases |events|
  {
    if |events| == 0 then (s, [])
    else
      var (s1, p1) := Step(cfg, schema, s, events[0]);
      var (s2, p2) := Run(cfg, schema, s1, events[1..]);
      (s2, p1 + p2)
  }

  /** Connecting always announces "online", whatever the state and however old the last arrival. */
  lemma ConnectAnnouncesOnline(cfg: Config, schema: seq<FieldSpec>, s: BridgeState)
    ensures var r := Step(cfg, schema, s, Connected);
            r.0 == s && |r.1| == |schema| + 1 && r.1[|schema|] == AvailabilityPublish(cfg, true)
  {
  }

  /** An arrival is recorded even when every field of the line throws. */
  lemma FailedLineStillArrives(cfg: Config, schema: seq<FieldSpec>, s: BridgeState, t: int, line: string)
    requires cfg.fractionDigits < 0 || cfg.fractionDigits > 100
    requires forall i | 0 <= i < |schema| :: schema[i].typeTag == Some("float")
    ensures Step(cfg, schema, s, LineReceived(t, line)).1 == []
    ensures Step(cfg, schema, s, LineReceived(t, line)).0.lastDataReceived == t
  {
    var os := Outcomes(cfg, schema, Split(line));
    NoneSucceed(os);
  }

  lemma {:induction false} NoneSucceed(os: seq<Completion<Publish>>)
    requires forall i | 0 <= i < |os| :: os[i].Throw?
    ensures Successes(os) == []
    decreases |os|
  {
    if |os| > 0 {
      NoneSucceed(os[..|os| - 1]);
    }
  }

  /** `lastDataReceived` is the time of the latest arrival in the run. */
  lemma {:induction false} LastArrivalRecorded(cfg: Config, schema: seq<FieldSpec>, s: BridgeState, events: seq<Event>, i: nat)
    requires i < |events| && events[i].LineReceived?
    requires forall j | i < j < |events| :: !events[j].LineReceived?
    ensures Run(cfg, schema, s, events).0.lastDataReceived == events[i].time
    decreases |events|
  {
    var s1 := Step(cfg, schema, s, events[0]).0;
    if i == 0 {
      NoArrivalKeepsTime(cfg, schema, s1, events[1..]);
    } else {
      LastArrivalRecorded(cfg, schema, s1, events[1..], i - 1);
    }
  }

  /** Without an arrival `lastDataReceived` does not move. */
  lemma {:induction false} NoArrivalKeepsTime(cfg: Config, schema: seq<FieldSpec>, s: BridgeState, events: seq<Event>)
    requires forall j | 0 <= j < |events| :: !events[j].LineReceived?
    ensures Run(cfg, schema, s, events).0.lastDataReceived == s.lastDataReceived
    decreases |events|
  {
    if |events| > 0 {
      NoArrivalKeepsTime(cfg, schema, Step(cfg, schema, s, events[0]).0, events[1..]);
    }
  }

  /** `receivedSerialData` is set by the first line and never cleared. */
  lemma {:induction false} ReceivedSerialDataOnce(cfg: Config, schema: seq<FieldSpec>, s: BridgeState, events: seq<Event>)
    ensures Run(cfg, schema, s, events).0.receivedSerialData
            <==> s.receivedSerialData || exists j | 0 <= j < |events| :: events[j].LineReceived?
    decreases |events|
  {
    if |events| > 0 {
      var s1 := Step(cfg, schema, s, events[0]).0;
      ReceivedSerialDataOnce(cfg, schema, s1, events[1..]);
      if exists j | 0 <= j < |events| :: events[j].LineReceived? {
        var j :| 0 <= j < |events| && events[j].LineReceived?;
        if j > 0 {
          assert events[1..][j - 1] == events[j];
        }
      }
      if exists j | 0 <= j < |events[1..]| :: events[1..][j].LineReceived? {
        var j :| 0 <= j < |events[1..]| && events[1..][j].LineReceived?;
        assert events[j + 1] == events[1..][j];
      }
    }
  }

  /** The availability check fires once: after any timer event it is no longer pending. */
  lemma {:induction false} CheckScheduledOnce(cfg: Config, schema: seq<FieldSpec>, s: BridgeState, events: seq<Event>)
    ensures Run(cfg, schema, s, events).0.checkPending
            <==> s.checkPending && forall j | 0 <= j < |events| :: !events[j].CheckTimer?
    decreases |events|
  {
    if |events| > 0 {
      var s1 := Step(cfg, schema, s, events[0]).0;
      CheckScheduledOnce(cfg, schema, s1, events[1..]);
      assert forall j | 0 < j < |events| :: events[j] == events[1..][j - 1];
    }
  }

  /**
   * With no line received, `lastDataReceived` is still 0, so a check at any
   * real clock reading (at least five minutes after the epoch) reports
   * "offline".
   */
  lemma NoDataMeansOffline(cfg: Config, schema: seq<FieldSpec>, events: seq<Event>, now: int)
    requires forall j | 0 <= j < |events| :: events[j].Connected?
    requires now >= 300000
    ensures Step(cfg, schema, Run(cfg, schema, Initial, events).0, CheckTimer(now)).1
            == [AvailabilityPublish(cfg, false)]
  {
    NoArrivalKeepsTime(cfg, schema, Initial, events);
    CheckScheduledOnce(cfg, schema, Initial, events);
  }

  /**
   * The one availability check after a run reports "online" exactly when
   * the run's last line arrived less than five minutes before it.
   */
  lemma LastLineDecidesAvailability(cfg: Config, schema: seq<FieldSpec>, s: BridgeState,
                                                       events: seq<Event>, i: nat, now: int)
    requires i < |events| && events[i].LineReceived?
    requires forall j | i < j < |events| :: !events[j].LineReceived?
    requires Run(cfg, schema, s, events).0.checkPending
    ensures var p := Step(cfg, schema, Run(cfg, schema, s, events).0, CheckTimer(now)).1;
            |p| == 1 && (p[0].payload == "online" <==> now - events[i].time < 300000)
            && (p[0].payload == "offline" <==> now - events[i].time >= 300000)
  {
    LastArrivalRecorded(cfg, schema, s, events, i);
  }
}

=== FILE: config.dfy ===
/**
 * The exported configuration object of src/config/index.js, as a pure
 * function of the process environment.  Every setting but the MQTT
 * credentials is written `process.env.X || default`, so an unset variable,
 * an empty one and (for the numeric settings) one that parses to NaN or 0
 * all fall back to the default.
 */
module Config {
  import opened Wrappers
  import opened Numbers
  import opened JsParse

  /** The process environment: the variables that are set, with their text. */
  type Env = map<string, string>

  /** process.env[key]: the text of a set variable, undefined otherwise. */
  function Lookup(env: Env, key: string): Option<string>
  {
    if key in env then Some(env[key]) else None
  }

  /**
   * The value of `process.env.INVERT_NEGATIVE_VALUES || false`: the
   * variable's text when that is non-empty, the boolean false otherwise.
   */
  datatype Flag = False | Text(raw: string)

  /** JavaScript truthiness of the flag: any non-empty string is true, "false" and "0" included. */
  predicate Truthy(f: Flag)
  {
    f.Text? && f.raw != ""
  }

  datatype Config = Config(
    logLevel: string,
    serial: string,
    baudRate: int,
    deviceMapping: string,
    fractionDigits: int,
    invertNegativeValues: Flag,
    sensorValueThreshold: int,
    mqttUrl: string,
    mqttUser: Option<string>,
    mqttPassword: Option<string>,
    identifier: string,
    discoveryPrefix: string)

  /** `process.env[key] || default` for a string setting. */
  function StringOr(env: Env, key: string, default: string): (r: string)
    ensures key in env && env[key] != "" ==> r == env[key]
    ensures key !in env || env[key] == "" ==> r == default
  {
    match Lookup(env, key)
    case Some(text) => if text != "" then text else default
    case None => default
  }

  /**
   * `parseInt(process.env[key]) || default`: the integer prefix of the
   * variable, unless that is NaN or zero (both falsy).
   */
  function IntOr(env: Env, key: string, default: int): (r: int)
    ensures r == default || r != 0
    ensures ParseInt(ToJsString(Lookup(env, key))).NaN? ==> r == default
    ensures ParseInt(ToJsString(Lookup(env, key))) == FromInt(0) ==> r == default
    ensures forall n | ParseInt(ToJsString(Lookup(env, key))) == FromInt(n) && n != 0 :: r == n
  {
    var parsed := ParseInt(ToJsString(Lookup(env, key)));
    if parsed.Finite? && parsed.d.mantissa != 0 then parsed.d.mantissa else default
  }

  /** `process.env[key] || false`. */
  function FlagOr(env: Env, key: string): (r: Flag)
    ensures Truthy(r) <==> key in env && env[key] != ""
    ensures Truthy(r) ==> r.raw == env[key]
  {
    match Lookup(env, key)
    case Some(text) => if text != "" then Text(text) else False
    case None => False
  }

  const DefaultBaudRate := 38400
  const DefaultFractionDigits := 2
  const DefaultThreshold := 0

  /** The configuration module's export object. */
  function Load(env: Env): (c: Config)
    ensures c.fractionDigits != 0
    ensures c.baudRate != 0
    ensures c.logLevel != "" && c.serial != "" && c.deviceMapping != "" && c.mqttUrl != ""
    ensures c.identifier != "" && c.discoveryPrefix != ""
    ensures c.mqttUser == Lookup(env, "MQTT_USER") && c.mqttPassword == Lookup(env, "MQTT_PASSWORD")
    ensures Truthy(c.invertNegativeValues) <==> "INVERT_NEGATIVE_VALUES" in env && env["INVERT_NEGATIVE_VALUES"] != ""
  {
    Config(
      logLevel := StringOr(env, "LOG_LEVEL", "info"),
      serial := StringOr(env, "SERIAL", "/dev/ttyAMA0"),
      baudRate := IntOr(env, "BAUD_RATE", DefaultBaudRate),
      deviceMapping := StringOr(env, "DEVICE_MAPPING", "RPICT7V1.json"),
      fractionDigits := IntOr(env, "FRACTION_DIGITS", DefaultFractionDigits),
      invertNegativeValues := FlagOr(env, "INVERT_NEGATIVE_VALUES"),
      sensorValueThreshold := IntOr(env, "SENSOR_VALUE_THRESHOLD", DefaultThreshold),
      mqttUrl := StringOr(env, "MQTT_URL", "mqtt://localhost:1883"),
      mqttUser := Lookup(env, "MQTT_USER"),
      mqttPassword := Lookup(env, "MQTT_PASSWORD"),
      identifier := StringOr(env, "IDENTIFIER", "lechacal"),
      discoveryPrefix := StringOr(env, "DISCOVERY_PREFIX", "homeassistant"))
  }

  /** An unset variable reads as the text "undefined", which parseInt rejects. */
  lemma UnsetIsNaN(env: Env, key: string)
    requires key !in env
    ensures ParseInt(ToJsString(Lookup(env, key))).NaN?
  {
    var text := ToJsString(Lookup(env, key));
    assert text == "undefined";
    ParseIntNoDigits(text);
  }

  /** With an empty environment every setting takes its default. */
  lemma EmptyEnvironmentDefaults()
    ensures Load(map[]) == Config("info", "/dev/ttyAMA0", 38400, "RPICT7V1.json", 2, False, 0,
                                  "mqtt://localhost:1883", None, None, "lechacal", "homeassistant")
  {
    UnsetIsNaN(map[], "BAUD_RATE");
    UnsetIsNaN(map[], "FRACTION_DIGITS");
    UnsetIsNaN(map[], "SENSOR_VALUE_THRESHOLD");
  }

  /**
   * A setting written as a decimal integer is read up to its first
   * non-digit, so "7.9" is 7 and "2.5" for a threshold is 2; zero falls back
   * to the default.  A lone "0" followed by "x" or "X" is not covered here:
   * it starts a hexadecimal number, so "0x10" is 16.
   */
  lemma IntSettingFromText(env: Env, key: string, default: int, negative: bool, n: nat, rest: string)
    requires key in env && env[key] == (if negative then "-" else "") + Digits.FromNat(n) + rest
    requires EndsDigits(rest)
    requires n == 0 ==> |rest| == 0 || (rest[0] != 'x' && rest[0] != 'X')
    ensures IntOr(env, key, default) == if n == 0 then default else if negative then -(n as int) else n
  {
    ParseIntPrefix(negative, n, rest);
  }

  /** FRACTION_DIGITS=0 cannot select zero decimal places: it yields the default 2. */
  lemma ZeroFractionDigitsIgnored(env: Env)
    requires "FRACTION_DIGITS" in env && env["FRACTION_DIGITS"] == "0"
    ensures Load(env).fractionDigits == 2
  {
    assert env["FRACTION_DIGITS"] == "" + Digits.FromNat(0) + "";
    IntSettingFromText(env, "FRACTION_DIGITS", DefaultFractionDigits, false, 0, "");
  }

  /** INVERT_NEGATIVE_VALUES=false still enables inversion: the flag is a non-empty string. */
  lemma FalseTextEnablesInversion(env: Env)
    requires "INVERT_NEGATIVE_VALUES" in env && env["INVERT_NEGATIVE_VALUES"] == "false"
    ensures Truthy(Load(env).invertNegativeValues)
  {
  }

  /**
   * Setting a defaulted variable to the empty string is the same as leaving
   * it unset; only the MQTT credentials, which have no default, tell the two
   * apart.
   */
  lemma EmptyLikeUnset(env: Env, key: string)
    requires key !in {"MQTT_USER", "MQTT_PASSWORD"}
    ensures Load(env[key := ""]) == Load(env - {key})
  {
    var e1, e2 := env[key := ""], env - {key};
    assert e1 == e2[key := ""];
    StringAgrees(e1, e2, key, "LOG_LEVEL", "info");
    StringAgrees(e1, e2, key, "SERIAL", "/dev/ttyAMA0");
    IntAgrees(e1, e2, key, "BAUD_RATE", DefaultBaudRate);
    StringAgrees(e1, e2, key, "DEVICE_MAPPING", "RPICT7V1.json");
    IntAgrees(e1, e2, key, "FRACTION_DIGITS", DefaultFractionDigits);
    FlagAgrees(e1, e2, key, "INVERT_NEGATIVE_VALUES");
    IntAgrees(e1, e2, key, "SENSOR_VALUE_THRESHOLD", DefaultThreshold);
    StringAgrees(e1, e2, key, "MQTT_URL", "mqtt://localhost:1883");
    StringAgrees(e1, e2, key, "IDENTIFIER", "lechacal");
    StringAgrees(e1, e2, key, "DISCOVERY_PREFIX", "homeassistant");
    LookupAgrees(e1, e2, key, "MQTT_USER");
    LookupAgrees(e1, e2, key, "MQTT_PASSWORD");
  }

  /** A variable other than the emptied one reads the same in both environments. */
  lemma LookupAgrees(e1: Env, e2: Env, key: string, k: string)
    requires key !in e2 && e1 == e2[key := ""] && k != key
    ensures Lookup(e1, k) == Lookup(e2, k)
  {
  }

  /** `process.env[k] || d` reads the same whether k is empty or unset. */
  lemma StringAgrees(e1: Env, e2: Env, key: string, k: string, d: string)
    requires key !in e2 && e1 == e2[key := ""]
    ensures StringOr(e1, k, d) == StringOr(e2, k, d)
  {
    if k != key {
      LookupAgrees(e1, e2, key, k);
    }
  }

  /** `parseInt(process.env[k]) || d` reads the same whether k is empty or unset. */
  lemma IntAgrees(e1: Env, e2: Env, key: string, k: string, d: int)
    requires key !in e2 && e1 == e2[key := ""]
    ensures IntOr(e1, k, d) == IntOr(e2, k, d)
  {
    if k == key {
      var empty, undefined := ToJsString(Lookup(e1, k)), ToJsString(Lookup(e2, k));
      assert empty == "" && undefined == "undefined";
      ParseIntNoDigits(empty);
      ParseIntNoDigits(undefined);
    } else {
      LookupAgrees(e1, e2, key, k);
    }
  }

  /** `process.env[k] || false` reads the same whether k is empty or unset. */
  lemma FlagAgrees(e1: Env, e2: Env, key: string, k: string)
    requires key !in e2 && e1 == e2[key := ""]
    ensures FlagOr(e1, k) == FlagOr(e2, k)
  {
    if k != key {
      LookupAgrees(e1, e2, key, k);
    }
  }
}

=== FILE: digits.dfy ===
/**
 * Digit strings: the character classes and positional values that
 * `parseInt`, `parseFloat` and `Number::toString` agree on
 * (ECMA-262 sections 19.2.5, 19.2.4 and 6.1.6.1.20).
 */
module Digits {

  /** 10 to the power n. */
  function Pow10(n: nat): (p: nat)
    ensures p >= 1
  {
    if n == 0 then 1 else 10 * Pow10(n - 1)
  }

  /** radix to the power n; at radix 10 it is Pow10 (Pow10IsPow). */
  function Pow(radix: nat, n: nat): nat
  {
    if n == 0 then 1 else radix * Pow(radix, n - 1)
  }

  lemma {:induction false} Pow10IsPow(n: nat)
    ensures Pow(10, n) == Pow10(n)
  {
    if n > 0 {
      Pow10IsPow(n - 1);
    }
  }

  /**
   * The digit value of c in the radix-36 alphabet of parseInt ('0'..'9',
   * then 'a'..'z' and 'A'..'Z' for 10..35), and 36 for every other character.
   */
  function DigitOf(c: char): nat
  {
    if '0' <= c <= '9' then c as nat - '0' as nat
    else if 'a' <= c <= 'z' then c as nat - 'a' as nat + 10
    else if 'A' <= c <= 'Z' then c as nat - 'A' as nat + 10
    else 36
  }

  predicate IsDigitIn(c: char, radix: nat)
  {
    DigitOf(c) < radix
  }

  predicate AllDigitsIn(s: string, radix: nat)
  {
    forall i | 0 <= i < |s| :: IsDigitIn(s[i], radix)
  }

  /** The value of a digit string, most significant digit first. */
  function ValueIn(s: string, radix: nat): nat
    requires AllDigitsIn(s, radix)
  {
    if |s| == 0 then 0 else ValueIn(s[..|s| - 1], radix) * radix + DigitOf(s[|s| - 1])
  }

  /** Number of leading characters of s that are radix digits. */
  function LeadingRun(s: string, radix: nat): (n: nat)
    ensures n <= |s|
    ensures AllDigitsIn(s[..n], radix)
    ensures n < |s| ==> !IsDigitIn(s[n], radix)
  {
    if |s| == 0 || !IsDigitIn(s[0], radix) then 0
    else
      var n := 1 + LeadingRun(s[1..], radix);
      assert s[..n] == [s[0]] + s[1..][..n - 1];
      n
  }

  /** A string of n zero digits. */
  function Zeros(n: nat): (z: string)
    ensures |z| == n && AllDigitsIn(z, 10)
  {
    seq(n, _ => '0')
  }

  function DigitChar(d: nat): (c: char)
    requires d < 10
    ensures IsDigitIn(c, 10) && DigitOf(c) == d
  {
    "0123456789"[d]
  }

  /** The shortest decimal digit string of n, as Number::toString writes it. */
  function FromNat(n: nat): (s: string)
    ensures 1 <= |s| && AllDigitsIn(s, 10)
    ensures s[0] == '0' <==> n == 0
    ensures n == 0 ==> s == "0"
  {
    if n < 10 then [DigitChar(n)]
    else
      var s := FromNat(n / 10) + [DigitChar(n % 10)];
      assert s[0] == FromNat(n / 10)[0];
      s
  }

  lemma {:induction false} FromNatValue(n: nat)
    ensures ValueIn(FromNat(n), 10) == n
  {
    if n >= 10 {
      FromNatValue(n / 10);
      var s := FromNat(n);
      assert s[..|s| - 1] == FromNat(n / 10);
    }
  }

  lemma AllDigitsConcat(a: string, b: string, radix: nat)
    requires AllDigitsIn(a, radix) && AllDigitsIn(b, radix)
    ensures AllDigitsIn(a + b, radix)
  {
    forall i | 0 <= i < |a + b|
      ensures IsDigitIn((a + b)[i], radix)
    {
      if i < |a| {
        assert (a + b)[i] == a[i];
      } else {
        assert (a + b)[i] == b[i - |a|];
      }
    }
  }

  /** Appending digits shifts the value left by their count. */
  lemma {:induction false} ValueAppend(a: string, b: string, radix: nat)
    requires AllDigitsIn(a, radix) && AllDigitsIn(b, radix)
    ensures AllDigitsIn(a + b, radix)
    ensures ValueIn(a + b, radix) == ValueIn(a, radix) * Pow(radix, |b|) + ValueIn(b, radix)
  {
    AllDigitsConcat(a, b, radix);
    if |b| > 0 {
      var b' := b[..|b| - 1];
      assert (a + b)[..|a + b| - 1] == a + b';
      ValueAppend(a, b', radix);
      var va, vb', d, p := ValueIn(a, radix), ValueIn(b', radix), DigitOf(b[|b| - 1]), Pow(radix, |b'|);
      var vab' := ValueIn(a + b', radix);
      assert vab' == va * p + vb';
      assert ValueIn(a + b, radix) == vab' * radix + d;
      assert ValueIn(b, radix) == vb' * radix + d;
      assert Pow(radix, |b|) == radix * p;
      Distribute(va, p, vb', radix, d);
    } else {
      assert a + b == a;
    }
  }

  lemma Distribute(x: int, y: int, z: int, w: int, d: int)
    ensures (x * y + z) * w + d == x * (w * y) + (z * w + d)
  {
  }

  lemma {:induction false} ZerosValue(n: nat)
    ensures ValueIn(Zeros(n), 10) == 0
  {
    if n > 0 {
      assert Zeros(n)[..n - 1] == Zeros(n - 1);
      ZerosValue(n - 1);
    }
  }

  lemma ZerosPrepend(n: nat)
    ensures "0" + Zeros(n) == Zeros(n + 1)
  {
    assert forall i | 0 <= i < n + 1 :: ("0" + Zeros(n))[i] == '0';
  }

  /** Leading zeros do not change a decimal value. */
  lemma LeadingZerosValue(n: nat, s: string)
    requires AllDigitsIn(s, 10)
    ensures AllDigitsIn(Zeros(n) + s, 10)
    ensures ValueIn(Zeros(n) + s, 10) == ValueIn(s, 10)
  {
    ValueAppend(Zeros(n), s, 10);
    ZerosValue(n);
  }

  /** Trailing zeros multiply a decimal value by a power of ten. */
  lemma TrailingZerosValue(s: string, n: nat)
    requires AllDigitsIn(s, 10)
    ensures AllDigitsIn(s + Zeros(n), 10)
    ensures ValueIn(s + Zeros(n), 10) == ValueIn(s, 10) * Pow10(n)
  {
    ValueAppend(s, Zeros(n), 10);
    ZerosValue(n);
    Pow10IsPow(n);
  }

  /** The digit run of a string that starts with a digit block stops exactly at its end. */
  lemma {:induction false} LeadingRunOfConcat(a: string, rest: string, radix: nat)
    requires AllDigitsIn(a, radix)
    requires |rest| == 0 || !IsDigitIn(rest[0], radix)
    ensures LeadingRun(a + rest, radix) == |a|
  {
    if |a| > 0 {
      assert (a + rest)[1..] == a[1..] + rest;
      LeadingRunOfConcat(a[1..], rest, radix);
    }
  }
}

=== FILE: field_decoder.dfy ===
/**
 * parseDataFromTemplateParams of src/server.js: one token of a serial line
 * turned into the value published for one field of the device mapping, by
 * the field's `type` tag.  Numeric fields are parsed, cleaned of NaN,
 * optionally made positive and cut at the configured threshold; every
 * other tag passes the token through.
 */
module FieldDecoder {
  import opened Wrappers
  import opened Numbers
  import opened JsParse
  import opened JsFormat
  import opened Config

  /**
   * One entry of the device mapping: its key, its `type` tag and the
   * `unit_of_measurement` and `icon` the discovery message shows (each may
   * be absent from the mapping file).
   */
  datatype FieldSpec = FieldSpec(name: string, typeTag: Option<string>, unit: Option<string>, icon: Option<string>)

  /** A decoded field: a number, the token text, or `undefined` when the line had no token for it. */
  datatype FieldValue = Num(n: JsNumber) | Str(s: string) | Undefined

  /** The tags that select a numeric branch of the switch; every other tag, or none, keeps the token. */
  predicate IsNumericTag(tag: Option<string>)
  {
    tag == Some("float") || tag == Some("integer")
  }

  /** What the threshold lets through: anything but NaN, and nothing below the threshold except 0. */
  predicate Settled(x: JsNumber, threshold: int)
  {
    !x.NaN? && (x == Zero || !LessThan(x, threshold))
  }

  /**
   * The three steps shared by the float and integer branches, in their
   * order: NaN becomes 0, a negative value is negated when inversion is on,
   * and a value below the threshold becomes 0.
   */
  function Settle(x: JsNumber, invert: bool, threshold: int): (r: JsNumber)
    ensures Settled(r, threshold)
    ensures threshold >= 0 ==> !LessThan(r, 0)
  {
    var cleaned := if x.NaN? then Zero else x;
    var signed := if LessThan(cleaned, 0) && invert then Negate(cleaned) else cleaned;
    var r := if LessThan(signed, threshold) then Zero else signed;
    if threshold >= 0 && !LessThan(r, threshold) then
      NotBelowNonNegative(r, threshold);
      r
    else r
  }

  /** A value not below a non-negative threshold is not negative. */
  lemma NotBelowNonNegative(x: JsNumber, threshold: int)
    requires threshold >= 0 && !LessThan(x, threshold)
    ensures !LessThan(x, 0)
  {
    if x.Finite? {
      LessThanIntIsValueLess(x.d, threshold);
      LessThanIntIsValueLess(x.d, 0);
    }
  }

  /**
   * The value of Settle on a finite number, stated on exact values: the
   * magnitude when inversion applies, then 0 below the threshold.
   */
  lemma SettleFinite(x: JsNumber, invert: bool, threshold: int)
    requires x.Finite?
    ensures Settle(x, invert, threshold).Finite?
    ensures var v := Value(x.d);
            var w := if v < 0.0 && invert then -v else v;
            Value(Settle(x, invert, threshold).d) == if w < threshold as real then 0.0 else w
  {
    var d := x.d;
    LessThanIntIsValueLess(d, 0);
    NegValue(d);
    var signed := if LessThan(x, 0) && invert then Negate(x) else x;
    LessThanIntIsValueLess(signed.d, threshold);
  }

  /** An unreadable number (NaN) is published as 0, whatever the settings. */
  lemma SettleNaN(invert: bool, threshold: int)
    ensures Settle(NaN, invert, threshold) == Zero
  {
  }

  /** Inversion never changes a value that is not negative. */
  lemma InversionKeepsNonNegative(x: JsNumber, threshold: int)
    requires !LessThan(x, 0)
    ensures Settle(x, true, threshold) == Settle(x, false, threshold)
  {
  }

  /** A reading at or above both 0 and the threshold is published unchanged. */
  lemma SettleKeepsReading(x: JsNumber, invert: bool, threshold: int)
    requires !x.NaN? && !LessThan(x, 0) && !LessThan(x, threshold)
    ensures Settle(x, invert, threshold) == x
  {
  }

  /**
   * A negative reading whose magnitude is below the threshold becomes 0,
   * whether or not it is inverted first.
   */
  lemma SmallNegativeIsZero(x: JsNumber, invert: bool, threshold: int)
    requires x.Finite? && LessThan(x, 0) && LessThan(Negate(x), threshold)
    ensures Settle(x, invert, threshold) == Zero
  {
    LessThanIntIsValueLess(x.d, 0);
    LessThanIntIsValueLess(Neg(x.d), threshold);
    LessThanIntIsValueLess(x.d, threshold);
    NegValue(x.d);
  }

  /**
   * parseDataFromTemplateParams(token, key) for a field whose tag is tag.
   * "float": Number(parseFloat(token).toFixed(fractionDigits)), which throws
   * a RangeError when the configured digit count is outside 0..100;
   * "integer": parseInt(token); both then Settle.  Any other tag returns
   * the token, undefined included.
   */
  function DecodeField(cfg: Config, tag: Option<string>, token: Option<string>): (r: Completion<FieldValue>)
    ensures r.Throw? <==> tag == Some("float") && (cfg.fractionDigits < 0 || cfg.fractionDigits > 100)
    ensures r.Normal? && IsNumericTag(tag) ==> r.value.Num? && Settled(r.value.n, cfg.sensorValueThreshold)
    ensures r.Normal? && IsNumericTag(tag) && cfg.sensorValueThreshold >= 0 ==> !LessThan(r.value.n, 0)
    ensures !IsNumericTag(tag) ==> r.Normal? && (r.value.Str? <==> token.Some?)
    ensures !IsNumericTag(tag) && token.Some? ==> r.value.s == token.value
  {
    var invert := Truthy(cfg.invertNegativeValues);
    var threshold := cfg.sensorValueThreshold;
    if tag == Some("float") then
      match ToFixed(ParseFloat(ToJsString(token)), cfg.fractionDigits)
      case Throw(e) => Throw(e)
      case Normal(x) => Normal(Num(Settle(x, invert, threshold)))
    else if tag == Some("integer") then
      Normal(Num(Settle(ParseInt(ToJsString(token)), invert, threshold)))
    else
      match token
      case Some(t) => Normal(Str(t))
      case None => Normal(Undefined)
  }

  /** `${value}`: the text published for a decoded field. */
  function Stringify(v: FieldValue): (text: string)
    ensures v.Str? ==> text == v.s
    ensures v.Undefined? ==> text == "undefined"
  {
    match v
    case Num(x) => NumberToString(x)
    case Str(s) => s
    case Undefined => "undefined"
  }

  /** A text field with no token on the line is published as the text "undefined". */
  lemma MissingTokenIsUndefined(cfg: Config, tag: Option<string>)
    requires !IsNumericTag(tag)
    ensures DecodeField(cfg, tag, None) == Normal(Undefined)
    ensures Stringify(DecodeField(cfg, tag, None).value) == "undefined"
  {
  }

  /** A token that cannot begin a number: neither white space, a sign, a digit, a point nor "Infinity". */
  predicate Unreadable(token: string)
  {
    |token| == 0 ||
    (!IsStrWhiteSpace(token[0]) && token[0] != '-' && token[0] != '+' && token[0] != '.' &&
     token[0] != 'I' && !Digits.IsDigitIn(token[0], 10))
  }

  lemma UnreadableIsNaN(token: string)
    requires Unreadable(token)
    ensures ParseFloat(token).NaN? && ParseInt(token).NaN?
  {
    ParseIntNoDigits(token);
    if |token| > 0 {
      TrimStartNoWhiteSpace(token);
    }
  }

  /**
   * A numeric field whose token its parser reads as NaN ("abc", "-", ".",
   * "Infinit", or a missing token, which is the text "undefined") is
   * published as 0; only the float branch needs a usable digit count.
   */
  lemma NaNTokenReadsZero(cfg: Config, tag: Option<string>, token: Option<string>)
    requires IsNumericTag(tag)
    requires tag == Some("float") ==> 0 <= cfg.fractionDigits <= 100
    requires tag == Some("float") ==> ParseFloat(ToJsString(token)).NaN?
    requires tag == Some("integer") ==> ParseInt(ToJsString(token)).NaN?
    ensures DecodeField(cfg, tag, token) == Normal(Num(Zero))
  {
    var invert, threshold := Truthy(cfg.invertNegativeValues), cfg.sensorValueThreshold;
    SettleNaN(invert, threshold);
    if tag == Some("float") {
      FloatBranch(cfg, token);
    } else {
      IntegerBranch(cfg, token);
    }
  }

  /**
   * In particular a numeric field whose token is missing or cannot begin a
   * number is published as 0.
   */
  lemma UnreadableReadsZero(cfg: Config, tag: Option<string>, token: Option<string>)
    requires IsNumericTag(tag)
    requires token.None? || Unreadable(token.value)
    requires tag == Some("float") ==> 0 <= cfg.fractionDigits <= 100
    ensures DecodeField(cfg, tag, token) == Normal(Num(Zero))
  {
    var text := ToJsString(token);
    if token.None? {
      assert text == "undefined";
    }
    UnreadableIsNaN(text);
    NaNTokenReadsZero(cfg, tag, token);
  }

  /**
   * Restates the float branch of DecodeField (toFixed, then Settle, or the
   * RangeError of toFixed) as one unfolding step for callers.
   */
  lemma FloatBranch(cfg: Config, token: Option<string>)
    ensures DecodeField(cfg, Some("float"), token)
            == match ToFixed(ParseFloat(ToJsString(token)), cfg.fractionDigits)
               case Throw(e) => Throw(e)
               case Normal(x) => Normal(Num(Settle(x, Truthy(cfg.invertNegativeValues), cfg.sensorValueThreshold)))
  {
  }

  /** Restates the integer branch of DecodeField (parseInt, then Settle) as one unfolding step for callers. */
  lemma IntegerBranch(cfg: Config, token: Option<string>)
    ensures DecodeField(cfg, Some("integer"), token)
            == Normal(Num(Settle(ParseInt(ToJsString(token)), Truthy(cfg.invertNegativeValues), cfg.sensorValueThreshold)))
  {
  }

  /**
   * A value that is 0 or negative with a magnitude below the threshold
   * becomes 0, inverted or not.
   */
  lemma BelowThresholdIsZero(y: JsNumber, invert: bool, threshold: int)
    requires y.Finite? && Value(y.d) <= 0.0 && -Value(y.d) < threshold as real
    ensures Settle(y, invert, threshold) == Zero
  {
    LessThanIntIsValueLess(y.d, 0);
    LessThanIntIsValueLess(y.d, threshold);
    if Value(y.d) < 0.0 {
      NegValue(y.d);
      LessThanIntIsValueLess(Neg(y.d), threshold);
      SmallNegativeIsZero(y, invert, threshold);
    }
  }

  /**
   * A negative float reading whose magnitude is below the threshold, such
   * as "-3.0" under a threshold of 5, is published as 0 even when negative
   * values are inverted: inversion comes before the threshold.
   */
  lemma InvertedBelowThreshold(cfg: Config, a: string, b: string)
    requires |a| > 0 && Digits.AllDigitsIn(a, 10) && Digits.AllDigitsIn(b, 10)
    requires |b| <= cfg.fractionDigits <= 100
    requires Value(Decimal(Digits.ValueIn(a + b, 10), -|b|)) < cfg.sensorValueThreshold as real
    ensures DecodeField(cfg, Some("float"), Some("-" + a + "." + b)) == Normal(Num(Zero))
  {
    var token := "-" + a + "." + b;
    var d := Decimal(Digits.ValueIn(a + b, 10), -|b|);
    var x := Neg(d);
    NegativePointDecimal(a, b);
    ToFixedExact(x, cfg.fractionDigits);
    NegValue(d);
    SignOfValue(d);
    var y := ToFixed(Finite(x), cfg.fractionDigits).value;
    FloatBranch(cfg, Some(token));
    BelowThresholdIsZero(y, Truthy(cfg.invertNegativeValues), cfg.sensorValueThreshold);
  }

  /** parseFloat of "-digits.digits" is the negated digit value scaled by the fraction length. */
  lemma NegativePointDecimal(a: string, b: string)
    requires |a| > 0 && Digits.AllDigitsIn(a, 10) && Digits.AllDigitsIn(b, 10)
    ensures ParseFloat("-" + a + "." + b) == Finite(Neg(Decimal(Digits.ValueIn(a + b, 10), -|b|)))
  {
    var u := a + "." + b;
    var token := "-" + a + "." + b;
    assert token == "-" + u;
    assert u[0] == a[0];
    ParsePointDecimal(a, b, u);
    ParseFloatNegative(u, token);
  }

  /**
   * An integer field reads the leading integer of its token and ignores
   * the rest: "7.9" is 7 and "12abc" is 12.
   */
  lemma ReadsLeadingInteger(cfg: Config, n: nat, rest: string)
    requires 0 < n && cfg.sensorValueThreshold <= n
    requires EndsDigits(rest)
    ensures DecodeField(cfg, Some("integer"), Some(Digits.FromNat(n) + rest)) == Normal(Num(FromInt(n)))
  {
    var token := Digits.FromNat(n) + rest;
    assert token == "" + Digits.FromNat(n) + rest;
    ParseIntPrefix(false, n, rest);
    IntegerBranch(cfg, Some(token));
    SettleKeepsReading(FromInt(n), Truthy(cfg.invertNegativeValues), cfg.sensorValueThreshold);
  }

  /**
   * A float reading written with exactly the configured number of decimals,
   * and not below 0 or the threshold, is published with its exact value.
   */
  lemma DecodeFloatExact(cfg: Config, token: string, d: Decimal)
    requires ParseFloat(token) == Finite(d)
    requires 0 <= cfg.fractionDigits <= 100 && d.exponent == -cfg.fractionDigits
    requires !LessThan(Finite(d), 0) && !LessThan(Finite(d), cfg.sensorValueThreshold)
    ensures DecodeField(cfg, Some("float"), Some(token)) == Normal(Num(Finite(d)))
  {
    ToFixedIdentity(d, cfg.fractionDigits);
    FloatBranch(cfg, Some(token));
    SettleKeepsReading(Finite(d), Truthy(cfg.invertNegativeValues), cfg.sensorValueThreshold);
  }

  /**
   * A reading that arrives in the form Number::toString would print it,
   * with exactly the configured number of decimals ("208.6" with one), is
   * published as the very same text.
   */
  lemma FloatEchoesToken(cfg: Config, m: nat, token: string)
    requires m % 10 != 0
    requires var digits := Digits.FromNat(m);
             0 < cfg.fractionDigits <= 100 && cfg.fractionDigits < |digits| && |digits| - cfg.fractionDigits <= 21
             && token == digits[..|digits| - cfg.fractionDigits] + "." + digits[|digits| - cfg.fractionDigits..]
    requires !LessThan(Finite(Decimal(m, -cfg.fractionDigits)), cfg.sensorValueThreshold)
    ensures DecodeField(cfg, Some("float"), Some(token)) == Normal(Num(Finite(Decimal(m, -cfg.fractionDigits))))
    ensures Stringify(DecodeField(cfg, Some("float"), Some(token)).value) == token
  {
    var d := Decimal(m, -cfg.fractionDigits);
    PointTextRoundTrip(m, cfg.fractionDigits, token);
    assert !LessThan(Finite(d), 0);
    DecodeFloatExact(cfg, token, d);
  }
}

=== FILE: js_format.dfy ===
/**
 * Number.prototype.toFixed (ECMA-262 section 21.1.3.3) and the
 * Number::toString conversion used by template literals (section
 * 6.1.6.1.20), over exact decimals.
 */
module JsFormat {
  import opened Digits
  import opened Numbers
  import opened JsParse

  function Abs(i: int): nat
  {
    if i < 0 then -i else i
  }

  /** |d| >= 10^21, the magnitude from which toFixed stops rounding. */
  predicate AtLeast1e21(d: Decimal)
  {
    var a := Abs(d.mantissa);
    if d.exponent >= 0 then a * Pow10(d.exponent) >= Pow10(21)
    else a >= Pow10(21) * Pow10(-d.exponent)
  }

  /**
   * The count of 10^-f units toFixed picks for the magnitude a * 10^e:
   * a * 10^(e+f) itself when that is whole, otherwise the nearest integer
   * with halves going up.
   */
  function RoundedUnits(a: nat, e: int, f: nat): nat
  {
    if e + f >= 0 then a * Pow10(e + f)
    else
      var q := Pow10(-(e + f));
      DivNonNegative(2 * a + q, 2 * q);
      (2 * a + q) / (2 * q)
  }

  lemma DivNonNegative(x: int, y: int)
    requires y > 0 && x >= 0
    ensures x / y >= 0
  {
  }

  lemma DivBounds(x: int, y: int)
    requires y > 0
    ensures y * (x / y) <= x < y * (x / y) + y
  {
  }

  /** Rounds d to f decimal places on its magnitude, keeping its sign. */
  function RoundTo(d: Decimal, f: nat): (r: Decimal)
    ensures r.exponent == -(f as int)
  {
    var n: int := RoundedUnits(Abs(d.mantissa), d.exponent, f);
    Decimal(if d.mantissa < 0 then -n else n, -(f as int))
  }

  /**
   * Number(x.toFixed(f)).  A fraction-digit count outside 0..100 throws a
   * RangeError before x is looked at; NaN and the infinities come back
   * unchanged, and so does a finite x of magnitude 10^21 or more, because
   * toFixed then prints it with Number::toString.
   */
  function ToFixed(x: JsNumber, f: int): (r: Completion<JsNumber>)
    ensures r.Throw? <==> f < 0 || f > 100
    ensures r.Normal? && !x.Finite? ==> r.value == x
    ensures r.Normal? && x.Finite? ==> r.value.Finite?
  {
    if f < 0 || f > 100 then Throw(RangeError)
    else
      match x
      case Finite(d) => Normal(Finite(if AtLeast1e21(d) then d else RoundTo(d, f)))
      case _ => Normal(x)
  }

  /** A number that already has at most f decimals is left as it is by toFixed(f). */
  lemma ToFixedExact(d: Decimal, f: int)
    requires 0 <= f <= 100 && d.exponent + f >= 0
    ensures ToFixed(Finite(d), f).Normal? && ToFixed(Finite(d), f).value.Finite?
    ensures Value(ToFixed(Finite(d), f).value.d) == Value(d)
  {
    if !AtLeast1e21(d) {
      var k: nat := d.exponent + f;
      RoundToExact(d, f);
      MantissaShift(d.mantissa, k, -(f as int));
    }
  }

  /** toFixed(f) of a number written with exactly f decimals is that number. */
  lemma ToFixedIdentity(d: Decimal, f: int)
    requires 0 <= f <= 100 && d.exponent + f == 0
    ensures ToFixed(Finite(d), f) == Normal(Finite(d))
  {
    if !AtLeast1e21(d) {
      RoundToExact(d, f);
      assert Pow10(0) == 1;
      assert RoundTo(d, f) == d;
    }
  }

  /** With no more than f decimals, rounding to f places only rescales the mantissa. */
  lemma RoundToExact(d: Decimal, f: nat)
    requires d.exponent + f >= 0
    ensures RoundTo(d, f) == Decimal(d.mantissa * Pow10(d.exponent + f), -(f as int))
  {
    var m, p := d.mantissa, Pow10(d.exponent + f);
    assert RoundedUnits(Abs(m), d.exponent, f) == Abs(m) * p;
    if m < 0 {
      NegatedFactor(m, p);
    }
  }

  lemma NegatedFactor(m: int, p: int)
    ensures (-m) * p == -(m * p)
  {
  }

  /**
   * How far n units of 10^-f lie from a * 10^e, scaled by a positive power
   * of ten (10^f when a * 10^(e+f) is whole, 10^-e otherwise) so that it is
   * an integer.  Scaling keeps the order of distances.
   */
  function UnitsGap(n: int, a: nat, e: int, f: nat): nat
  {
    if e + f >= 0 then Abs(n - a * Pow10(e + f))
    else Abs(n * Pow10(-(e + f)) - a)
  }

  lemma MulAtLeast(x: int, q: nat)
    requires x >= 1
    ensures x * q >= q
  {
  }

  /**
   * The rule of toFixed: the chosen n makes n / 10^f - x as close to zero
   * as possible, and of two equally close integers it is the larger.
   */
  lemma RoundedUnitsNearest(a: nat, e: int, f: nat, other: int)
    ensures UnitsGap(RoundedUnits(a, e, f), a, e, f) <= UnitsGap(other, a, e, f)
    ensures UnitsGap(RoundedUnits(a, e, f), a, e, f) == UnitsGap(other, a, e, f)
            ==> other <= RoundedUnits(a, e, f)
  {
    var n := RoundedUnits(a, e, f);
    if e + f < 0 {
      var q := Pow10(-(e + f));
      assert n == (2 * a + q) / (2 * q);
      HalfUnitBound(a, q, n);
      MultipleGap(n, other, q);
      assert UnitsGap(n, a, e, f) == Abs(n * q - a);
      assert UnitsGap(other, a, e, f) == Abs(other * q - a);
    }
  }

  /** n = floor((2a + q) / 2q) puts n * q within half of q of a, and not half of q below it. */
  lemma HalfUnitBound(a: int, q: int, n: int)
    requires q > 0 && n == (2 * a + q) / (2 * q)
    ensures -q < 2 * (n * q - a) <= q
  {
    DivBounds(2 * a + q, 2 * q);
    assert (2 * q) * n == 2 * (n * q);
  }

  /** Distinct multiples of q are at least q apart. */
  lemma MultipleGap(n: int, other: int, q: int)
    requires q > 0
    ensures other > n ==> other * q >= n * q + q
    ensures other < n ==> other * q <= n * q - q
  {
    if other > n {
      MulAtLeast(other - n, q);
      assert other * q == n * q + (other - n) * q;
    } else if other < n {
      MulAtLeast(n - other, q);
      assert other * q == n * q - (n - other) * q;
    }
  }

  /** Rounding works on the magnitude, so it commutes with negation (halves go away from zero). */
  lemma RoundToSymmetric(d: Decimal, f: nat)
    ensures RoundTo(Neg(d), f) == Neg(RoundTo(d, f))
  {
  }

  /**
   * Number::toString of a positive decimal whose mantissa has no trailing
   * zero: its digits are the k digits of the mantissa and n = exponent + k
   * places the point.
   */
  function PositiveToString(d: Decimal): (s: string)
    requires d.mantissa > 0 && d.mantissa % 10 != 0
  {
    var digits := FromNat(d.mantissa);
    Layout(digits, d.exponent + |digits|)
  }

  /**
   * Steps 6 to 10 of Number::toString: the k significant digits written
   * so that their point falls after the n-th digit, in plain notation when
   * -6 < n <= 21 and in exponent notation otherwise.
   */
  function Layout(digits: string, n: int): string
  {
    var k := |digits|;
    if k <= n <= 21 then digits + Zeros(n - k)
    else if 0 < n <= 21 then digits[..n] + "." + digits[n..]
    else if -6 < n <= 0 then "0." + Zeros(-n) + digits
    else if k == 1 then digits + ExponentSuffix(n - 1)
    else if k == 0 then ""
    else digits[..1] + "." + digits[1..] + ExponentSuffix(n - 1)
  }

  /** The exponent of Number::toString's exponent notation: "e", its sign, its digits. */
  function ExponentSuffix(e: int): string
  {
    "e" + (if e < 0 then "-" else "+") + FromNat(Abs(e))
  }

  /** Number::toString(x), the text `${x}` produces for a number. */
  function NumberToString(x: JsNumber): (text: string)
    ensures |text| > 0
    ensures x.Finite? ==> (text[0] == '-' <==> x.d.mantissa < 0)
  {
    match x
    case NaN => "NaN"
    case Infinity(negative) => if negative then "-Infinity" else "Infinity"
    case Finite(d) =>
      if d.mantissa == 0 then "0"
      else if d.mantissa < 0 then "-" + PositiveToString(Normalize(Neg(d)))
      else
        PositiveToStringStartsWithDigit(Normalize(d));
        PositiveToString(Normalize(d))
  }

  /**
   * A number with k > 0 decimals, no trailing zero and at most 21 digits
   * before the point prints in plain notation with the point k digits from
   * the end ("202.1").
   */
  lemma PointToString(m: nat, k: nat)
    requires m % 10 != 0 && 0 < k < |FromNat(m)| && |FromNat(m)| - k <= 21
    ensures var digits := FromNat(m);
            NumberToString(Finite(Decimal(m, -(k as int)))) == digits[..|digits| - k] + "." + digits[|digits| - k..]
  {
    var digits := FromNat(m);
    assert Normalize(Decimal(m, -(k as int))) == Decimal(m, -(k as int));
    assert Layout(digits, |digits| - k) == digits[..|digits| - k] + "." + digits[|digits| - k..];
  }

  /**
   * Text in the form Number::toString gives a number with k > 0 decimals is
   * read back by parseFloat as exactly that number.
   */
  lemma PointTextRoundTrip(m: nat, k: nat, text: string)
    requires m % 10 != 0
    requires var digits := FromNat(m);
             0 < k < |digits| && |digits| - k <= 21 && text == digits[..|digits| - k] + "." + digits[|digits| - k..]
    ensures ParseFloat(text) == Finite(Decimal(m, -(k as int)))
    ensures NumberToString(Finite(Decimal(m, -(k as int)))) == text
  {
    var digits := FromNat(m);
    var a, b := digits[..|digits| - k], digits[|digits| - k..];
    assert a + b == digits;
    FromNatValue(m);
    ParsePointDecimal(a, b, text);
    PointToString(m, k);
  }

  /** Two numbers are the same JavaScript value (NaN counted equal to itself). */
  predicate SameNumber(x: JsNumber, y: JsNumber)
  {
    match x
    case NaN => y.NaN?
    case Infinity(negative) => y == Infinity(negative)
    case Finite(d) => y.Finite? && Value(y.d) == Value(d)
  }

  /** An integer with trailing zeros ("1200"). */
  lemma ReadWhole(digits: string, j: nat)
    requires |digits| > 0 && AllDigitsIn(digits, 10)
    ensures ParseUnsignedDecimal(digits + Zeros(j)) == Finite(Decimal(ValueIn(digits, 10) * Pow10(j), 0))
  {
    TrailingZerosValue(digits, j);
    assert digits + Zeros(j) == digits + Zeros(j) + "";
    ParseDigits(digits + Zeros(j), "");
  }

  /** A point inside the digits ("12.5"). */
  lemma ReadPoint(digits: string, n: nat)
    requires AllDigitsIn(digits, 10) && 0 < n < |digits|
    ensures ParseUnsignedDecimal(digits[..n] + "." + digits[n..])
            == Finite(Decimal(ValueIn(digits, 10), n - |digits|))
  {
    assert digits[..n] + digits[n..] == digits;
    assert digits[..n] + "." + digits[n..] == digits[..n] + "." + digits[n..] + "";
    ParseDigitsPointDigits(digits[..n], digits[n..], "");
  }

  /** A number below one ("0.0025"). */
  lemma ReadSmall(digits: string, z: nat)
    requires AllDigitsIn(digits, 10)
    ensures ParseUnsignedDecimal("0." + Zeros(z) + digits)
            == Finite(Decimal(ValueIn(digits, 10), -(z + |digits|)))
  {
    var b := Zeros(z) + digits;
    LeadingZerosValue(z, digits);
    SmallText(digits, z);
    ParseDigitsPointDigits("0", b, "");
    ZeroBeforeZeros(digits, z);
    LeadingZerosValue(z + 1, digits);
  }

  /** Regroups the text "0." + zeros + digits as the "0", the point and the fraction digits the parser reads. */
  lemma SmallText(digits: string, z: nat)
    ensures "0." + Zeros(z) + digits == "0" + "." + (Zeros(z) + digits) + ""
  {
  }

  /** The leading "0" in front of z zeros is z + 1 zeros. */
  lemma ZeroBeforeZeros(digits: string, z: nat)
    ensures "0" + (Zeros(z) + digits) == Zeros(z + 1) + digits
  {
    ZerosPrepend(z);
    assert "0" + (Zeros(z) + digits) == ("0" + Zeros(z)) + digits;
  }

  /** Exponent notation with one significant digit ("5e-7"). */
  lemma ReadExponentOneDigit(digits: string, e: int)
    requires |digits| == 1 && AllDigitsIn(digits, 10)
    ensures ParseUnsignedDecimal(digits + ExponentSuffix(e)) == Finite(Decimal(ValueIn(digits, 10), e))
  {
    ExponentPartOf(e < 0, Abs(e));
    ParseDigits(digits, ExponentSuffix(e));
  }

  /** Exponent notation with several significant digits ("1.5e+25"). */
  lemma ReadExponentDigits(digits: string, e: int)
    requires |digits| > 1 && AllDigitsIn(digits, 10)
    ensures ParseUnsignedDecimal(digits[..1] + "." + digits[1..] + ExponentSuffix(e))
            == Finite(Decimal(ValueIn(digits, 10), e - (|digits| - 1)))
  {
    ExponentPartOf(e < 0, Abs(e));
    assert digits[..1] + digits[1..] == digits;
    ParseDigitsPointDigits(digits[..1], digits[1..], ExponentSuffix(e));
  }

  /** parseFloat, past any sign, reads text as a finite number of value v. */
  predicate ReadsBackAs(text: string, v: real)
  {
    var r := ParseUnsignedDecimal(text);
    r.Finite? && Value(r.d) == v
  }

  /** Each textual form of Layout is read back by parseFloat as the value it lays out. */
  lemma LayoutRoundTrip(digits: string, n: int)
    requires |digits| > 0 && AllDigitsIn(digits, 10)
    ensures ReadsBackAs(Layout(digits, n), Value(Decimal(ValueIn(digits, 10), n - |digits|)))
  {
    var k := |digits|;
    if k <= n <= 21 {
      LayoutWholeRoundTrip(digits, n);
    } else if 0 < n <= 21 {
      LayoutPointRoundTrip(digits, n);
    } else if -6 < n <= 0 {
      LayoutSmallRoundTrip(digits, n);
    } else {
      LayoutExponentRoundTrip(digits, n);
    }
  }

  lemma LayoutWholeRoundTrip(digits: string, n: int)
    requires |digits| > 0 && AllDigitsIn(digits, 10)
    requires |digits| <= n <= 21
    ensures ReadsBackAs(Layout(digits, n), Value(Decimal(ValueIn(digits, 10), n - |digits|)))
  {
    var k := |digits|;
    assert Layout(digits, n) == digits + Zeros(n - k);
    ReadWhole(digits, n - k);
    ShiftedValue(ValueIn(digits, 10), n - k);
  }

  /** Moving a non-negative exponent into the mantissa keeps the value. */
  lemma ShiftedValue(v: int, j: nat)
    ensures Value(Decimal(v * Pow10(j), 0)) == Value(Decimal(v, j))
  {
    var p := Pow10(j);
    RealProduct(v, p);
    assert Scale(0) == 1.0;
    assert Scale(j) == p as real;
  }

  lemma LayoutPointRoundTrip(digits: string, n: int)
    requires |digits| > 0 && AllDigitsIn(digits, 10)
    requires 0 < n <= 21 && n < |digits|
    ensures ReadsBackAs(Layout(digits, n), Value(Decimal(ValueIn(digits, 10), n - |digits|)))
  {
    assert Layout(digits, n) == digits[..n] + "." + digits[n..];
    ReadPoint(digits, n);
  }

  lemma {:induction false} LayoutSmallRoundTrip(digits: string, n: int)
    requires |digits| > 0 && AllDigitsIn(digits, 10)
    requires -6 < n <= 0
    ensures ReadsBackAs(Layout(digits, n), Value(Decimal(ValueIn(digits, 10), n - |digits|)))
  {
    assert Layout(digits, n) == "0." + Zeros(-n) + digits;
    ReadSmall(digits, -n);
  }

  lemma LayoutExponentRoundTrip(digits: string, n: int)
    requires |digits| > 0 && AllDigitsIn(digits, 10)
    requires !(|digits| <= n <= 21) && !(0 < n <= 21) && !(-6 < n <= 0)
    ensures ReadsBackAs(Layout(digits, n), Value(Decimal(ValueIn(digits, 10), n - |digits|)))
  {
    if |digits| == 1 {
      LayoutOneDigitRoundTrip(digits, n);
    } else {
      LayoutDigitsRoundTrip(digits, n);
    }
  }

  lemma LayoutOneDigitRoundTrip(digits: string, n: int)
    requires |digits| == 1 && AllDigitsIn(digits, 10)
    requires !(|digits| <= n <= 21) && !(0 < n <= 21) && !(-6 < n <= 0)
    ensures ReadsBackAs(Layout(digits, n), Value(Decimal(ValueIn(digits, 10), n - |digits|)))
  {
    var text := Layout(digits, n);
    assert text == digits + ExponentSuffix(n - 1);
    ReadExponentOneDigit(digits, n - 1);
    assert ParseUnsignedDecimal(text) == Finite(Decimal(ValueIn(digits, 10), n - |digits|));
  }

  lemma {:induction false} LayoutDigitsRoundTrip(digits: string, n: int)
    requires |digits| > 1 && AllDigitsIn(digits, 10)
    requires !(|digits| <= n <= 21) && !(0 < n <= 21) && !(-6 < n <= 0)
    ensures ReadsBackAs(Layout(digits, n), Value(Decimal(ValueIn(digits, 10), n - |digits|)))
  {
    var text := Layout(digits, n);
    assert text == digits[..1] + "." + digits[1..] + ExponentSuffix(n - 1);
    ReadExponentDigits(digits, n - 1);
    assert ParseUnsignedDecimal(text) == Finite(Decimal(ValueIn(digits, 10), n - |digits|));
  }

  lemma PositiveRoundTrip(d: Decimal)
    requires d.mantissa > 0 && d.mantissa % 10 != 0
    ensures ReadsBackAs(PositiveToString(d), Value(d))
  {
    var digits := FromNat(d.mantissa);
    FromNatValue(d.mantissa);
    LayoutRoundTrip(digits, d.exponent + |digits|);
  }

  /** The first character of PositiveToString is a digit. */
  lemma PositiveToStringStartsWithDigit(d: Decimal)
    requires d.mantissa > 0 && d.mantissa % 10 != 0
    ensures |PositiveToString(d)| > 0 && IsDigitIn(PositiveToString(d)[0], 10)
  {
  }

  /**
   * parseFloat reads back exactly the number that Number::toString wrote:
   * the text published for a reading denotes the reading itself.
   */
  lemma NumberToStringRoundTrip(x: JsNumber)
    ensures SameNumber(x, ParseFloat(NumberToString(x)))
  {
    match x
    case NaN => NaNRoundTrip();
    case Infinity(negative) => InfinityRoundTrip(negative);
    case Finite(d) =>
      if d.mantissa == 0 {
        ZeroRoundTrip(d);
      } else if d.mantissa > 0 {
        PositiveNumberRoundTrip(d);
      } else {
        NegativeNumberRoundTrip(d);
      }
  }

  lemma NaNRoundTrip()
    ensures ParseFloat(NumberToString(NaN)) == NaN
  {
    TrimStartNoWhiteSpace("NaN");
    assert !StartsWithInfinity("NaN");
    assert LeadingRun("NaN", 10) == 0;
    assert "NaN"[0..] == "NaN";
  }

  lemma InfinityRoundTrip(negative: bool)
    ensures ParseFloat(NumberToString(Infinity(negative))) == Infinity(negative)
  {
    var text := NumberToString(Infinity(negative));
    TrimStartNoWhiteSpace(text);
    if negative {
      assert text[1..] == "Infinity";
      assert StartsWithInfinity(text[1..]);
    } else {
      assert StartsWithInfinity(text);
    }
  }

  lemma ZeroRoundTrip(d: Decimal)
    requires d.mantissa == 0
    ensures SameNumber(Finite(d), ParseFloat(NumberToString(Finite(d))))
  {
    TrimStartNoWhiteSpace("0");
    assert "0" == "0" + "";
    ParseDigits("0", "");
  }

  lemma PositiveNumberRoundTrip(d: Decimal)
    requires d.mantissa > 0
    ensures SameNumber(Finite(d), ParseFloat(NumberToString(Finite(d))))
  {
    var p := PositiveToString(Normalize(d));
    assert NumberToString(Finite(d)) == p;
    PositiveToStringStartsWithDigit(Normalize(d));
    DigitIsNotWhiteSpace(p[0]);
    TrimStartNoWhiteSpace(p);
    assert ParseFloat(p) == ParseUnsignedDecimal(p);
    PositiveRoundTrip(Normalize(d));
  }

  lemma NegativeNumberRoundTrip(d: Decimal)
    requires d.mantissa < 0
    ensures SameNumber(Finite(d), ParseFloat(NumberToString(Finite(d))))
  {
    var p := PositiveToString(Normalize(Neg(d)));
    assert NumberToString(Finite(d)) == "-" + p;
    TrimStartNoWhiteSpace("-" + p);
    assert ("-" + p)[1..] == p;
    assert ParseFloat("-" + p) == Negate(ParseUnsignedDecimal(p));
    PositiveRoundTrip(Normalize(Neg(d)));
    NegValue(d);
    NegValue(ParseUnsignedDecimal(p).d);
  }
}

=== FILE: js_parse.dfy ===
/**
 * The global `parseInt` (radix omitted) and `parseFloat` functions of
 * ECMA-262 (sections 19.2.5 and 19.2.4), over exact decimals.  Both first
 * convert their argument to a string, so `undefined` becomes the text
 * "undefined".
 */
module JsParse {
  import opened Wrappers
  import opened Digits
  import opened Numbers

  /** ToString of a value that is a string or undefined. */
  function ToJsString(v: Option<string>): string
  {
    match v
    case None => "undefined"
    case Some(s) => s
  }

  /**
   * StrWhiteSpaceChar (ECMA-262 section 7.1.4.1): the WhiteSpace code points
   * (including every space separator of category Zs) and the LineTerminator
   * code points.
   */
  predicate IsStrWhiteSpace(c: char)
  {
    || c == '\t' || c == '\U{000B}' || c == '\U{000C}' || c == ' '
    || c == '\U{00A0}' || c == '\U{FEFF}' || c == '\U{1680}'
    || ('\U{2000}' <= c <= '\U{200A}') || c == '\U{202F}' || c == '\U{205F}' || c == '\U{3000}'
    || c == '\n' || c == '\r' || c == '\U{2028}' || c == '\U{2029}'
  }

  /** Removes leading white space, as both parse functions do first. */
  function TrimStart(s: string): (t: string)
    ensures |t| <= |s| && t == s[|s| - |t|..]
    ensures forall i | 0 <= i < |s| - |t| :: IsStrWhiteSpace(s[i])
    ensures |t| == 0 || !IsStrWhiteSpace(t[0])
  {
    if |s| > 0 && IsStrWhiteSpace(s[0]) then
      var t := TrimStart(s[1..]);
      assert forall i | 1 <= i < |s| - |t| :: s[i] == s[1..][i - 1];
      t
    else s
  }

  lemma TrimStartNoWhiteSpace(s: string)
    requires |s| > 0 && !IsStrWhiteSpace(s[0])
    ensures TrimStart(s) == s
  {
  }

  /**
   * parseInt(input) with the radix left undefined: skip white space, take an
   * optional sign, switch to radix 16 after a "0x" or "0X" prefix, then read
   * the longest run of digits of that radix.  No digits at all gives NaN.
   */
  function ParseInt(input: string): (r: JsNumber)
    ensures r.NaN? || (r.Finite? && r.d.exponent == 0)
  {
    ParseIntTrimmed(TrimStart(input))
  }

  /** parseInt after the leading white space is gone. */
  function ParseIntTrimmed(s: string): (r: JsNumber)
    ensures r.NaN? || (r.Finite? && r.d.exponent == 0)
  {
    var negative := |s| > 0 && s[0] == '-';
    var unsigned := if |s| > 0 && (s[0] == '-' || s[0] == '+') then s[1..] else s;
    ParseIntUnsigned(unsigned, negative)
  }

  /** parseInt after the sign, with the sign already read. */
  function ParseIntUnsigned(unsigned: string, negative: bool): (r: JsNumber)
    ensures r.NaN? || (r.Finite? && r.d.exponent == 0)
  {
    var hex := |unsigned| >= 2 && unsigned[0] == '0' && (unsigned[1] == 'x' || unsigned[1] == 'X');
    var radix := if hex then 16 else 10;
    var body := if hex then unsigned[2..] else unsigned;
    var n := LeadingRun(body, radix);
    if n == 0 then NaN
    else
      var v: int := ValueIn(body[..n], radix);
      FromInt(if negative then -v else v)
  }

  /**
   * The exponent of an ExponentPart at the start of t ("e" or "E", an
   * optional sign, at least one digit), or 0 when t does not start with a
   * complete one, in which case the longest valid prefix ends before it.
   */
  function ExponentPart(t: string): int
  {
    if |t| >= 2 && (t[0] == 'e' || t[0] == 'E') then
      var negative := t[1] == '-';
      var u := if t[1] == '-' || t[1] == '+' then t[2..] else t[1..];
      var k := LeadingRun(u, 10);
      var v: int := ValueIn(u[..k], 10);
      if k == 0 then 0
      else if negative then -v else v
    else 0
  }

  /**
   * The value of the longest prefix of s that is a StrUnsignedDecimalLiteral:
   * "Infinity", or digits with an optional fraction (at least one digit on
   * one side of the point) and an optional exponent.  NaN when no prefix is.
   */
  function ParseUnsignedDecimal(s: string): (r: JsNumber)
    ensures r.NaN? || r == Infinity(false) || (r.Finite? && r.d.mantissa >= 0)
  {
    if StartsWithInfinity(s) then Infinity(false) else ParseFiniteDecimal(s)
  }

  predicate StartsWithInfinity(s: string)
  {
    |s| >= 8 && s[..8] == "Infinity"
  }

  /** The digits-point-digits-exponent alternatives of StrUnsignedDecimalLiteral. */
  function ParseFiniteDecimal(s: string): (r: JsNumber)
    ensures r.NaN? || (r.Finite? && r.d.mantissa >= 0)
  {
    var i := LeadingRun(s, 10);
    var rest := s[i..];
    if |rest| > 0 && rest[0] == '.' then ParseFraction(s[..i], rest[1..])
    else if i == 0 then NaN
    else Finite(Decimal(ValueIn(s[..i], 10), ExponentPart(rest)))
  }

  /**
   * The rest of a decimal literal after its point, given the digits before
   * the point; a point needs a digit on at least one side.
   */
  function ParseFraction(whole: string, t: string): (r: JsNumber)
    requires AllDigitsIn(whole, 10)
    ensures r.NaN? || (r.Finite? && r.d.mantissa >= 0)
  {
    var j := LeadingRun(t, 10);
    if |whole| == 0 && j == 0 then NaN
    else
      AllDigitsConcat(whole, t[..j], 10);
      Finite(Decimal(ValueIn(whole + t[..j], 10), ExponentPart(t[j..]) - j))
  }

  /**
   * parseFloat(input): skip white space, take an optional sign, read the
   * longest decimal literal.  The sign read decides the sign of the result,
   * and blank input is NaN.
   */
  function ParseFloat(input: string): (r: JsNumber)
    ensures r.Finite? ==> (r.d.mantissa < 0 ==> ReadsMinus(input)) && (r.d.mantissa > 0 ==> !ReadsMinus(input))
    ensures r.Infinity? ==> (r.negative <==> ReadsMinus(input))
    ensures |TrimStart(input)| == 0 ==> r.NaN?
  {
    var s := TrimStart(input);
    BlankIsNaN();
    var u := ParseUnsignedDecimal(if |s| > 0 && (s[0] == '-' || s[0] == '+') then s[1..] else s);
    if ReadsMinus(input) then Negate(u) else u
  }

  /** No literal can be read from the empty string. */
  lemma BlankIsNaN()
    ensures ParseUnsignedDecimal("").NaN?
  {
    assert !StartsWithInfinity("");
  }

  /** The first character after the leading white space is a minus sign. */
  predicate ReadsMinus(input: string)
  {
    var s := TrimStart(input);
    |s| > 0 && s[0] == '-'
  }

  /** A character that cannot continue a decimal digit run. */
  predicate EndsDigits(rest: string)
  {
    |rest| == 0 || !IsDigitIn(rest[0], 10)
  }

  /**
   * parseInt reads the leading decimal integer of its argument and ignores
   * whatever follows it, so "12abc" gives 12 and "7.9" gives 7.  The one
   * exception is a lone "0" followed by "x" or "X", which starts a
   * hexadecimal literal.
   */
  lemma ParseIntPrefix(negative: bool, n: nat, rest: string)
    requires EndsDigits(rest)
    requires n == 0 ==> |rest| == 0 || (rest[0] != 'x' && rest[0] != 'X')
    ensures ParseInt((if negative then "-" else "") + FromNat(n) + rest)
            == FromInt(if negative then -(n as int) else n)
  {
    SignedConcat(negative, FromNat(n), rest);
    NatDigitsBeforeRest(n, rest);
    ParseIntSigned(negative, FromNat(n) + rest);
    ParseIntUnsignedDecimal(FromNat(n), rest, negative);
    FromNatValue(n);
  }

  /** Regroups the sign, digits and rest so the sign stands in front of one string. */
  lemma SignedConcat(negative: bool, digits: string, rest: string)
    ensures (if negative then "-" else "") + digits + rest == (if negative then "-" else "") + (digits + rest)
  {
  }

  /** The digits of n in front of rest meet what the decimal integer reader needs. */
  lemma NatDigitsBeforeRest(n: nat, rest: string)
    requires n == 0 ==> |rest| == 0 || (rest[0] != 'x' && rest[0] != 'X')
    ensures |FromNat(n) + rest| > 0 && IsDigitIn((FromNat(n) + rest)[0], 10)
    ensures FromNat(n)[0] == '0' ==> |FromNat(n)| == 1 && (|rest| == 0 || (rest[0] != 'x' && rest[0] != 'X'))
  {
    var digits := FromNat(n);
    assert (digits + rest)[0] == digits[0];
    assert IsDigitIn(digits[0], 10);
  }

  /** parseInt of an optional minus sign followed by a digit reads the sign and moves on. */
  lemma ParseIntSigned(negative: bool, u: string)
    requires |u| > 0 && IsDigitIn(u[0], 10)
    ensures ParseInt((if negative then "-" else "") + u) == ParseIntUnsigned(u, negative)
  {
    var s := (if negative then "-" else "") + u;
    DigitIsNotWhiteSpace(u[0]);
    assert s[0] == (if negative then '-' else u[0]);
    TrimStartNoWhiteSpace(s);
    if negative {
      assert s[1..] == u;
    }
  }

  lemma {:induction false} ParseIntUnsignedDecimal(digits: string, rest: string, negative: bool)
    requires |digits| > 0 && AllDigitsIn(digits, 10) && EndsDigits(rest)
    requires digits[0] == '0' ==> |digits| == 1 && (|rest| == 0 || (rest[0] != 'x' && rest[0] != 'X'))
    ensures ParseIntUnsigned(digits + rest, negative)
            == FromInt(if negative then -(ValueIn(digits, 10) as int) else ValueIn(digits, 10))
  {
    var u := digits + rest;
    assert !(|u| >= 2 && u[0] == '0' && (u[1] == 'x' || u[1] == 'X')) by {
      if |u| >= 2 && u[0] == '0' {
        assert u[1] == rest[0];
      }
    }
    LeadingRunOfConcat(digits, rest, 10);
    assert u[..|digits|] == digits;
  }

  /** A string with no digit where the number should start is NaN to parseInt. */
  lemma ParseIntNoDigits(s: string)
    requires |s| == 0 || (!IsDigitIn(s[0], 10) && s[0] != '-' && s[0] != '+' && !IsStrWhiteSpace(s[0]))
    ensures ParseInt(s).NaN?
  {
  }

  /** The exponent text that Number::toString writes is read back exactly. */
  lemma ExponentPartOf(negative: bool, v: nat)
    ensures ExponentPart("e" + (if negative then "-" else "+") + FromNat(v)) == (if negative then -(v as int) else v)
  {
    var digits := FromNat(v);
    var t := "e" + (if negative then "-" else "+") + digits;
    assert t[2..] == digits + "";
    LeadingRunOfConcat(digits, "", 10);
    assert digits[..|digits|] == digits;
    FromNatValue(v);
  }

  /** Digits followed by something that is neither a digit nor a point. */
  lemma {:induction false} ParseDigits(a: string, x: string)
    requires |a| > 0 && AllDigitsIn(a, 10)
    requires EndsDigits(x) && (|x| == 0 || x[0] != '.')
    ensures ParseUnsignedDecimal(a + x) == Finite(Decimal(ValueIn(a, 10), ExponentPart(x)))
  {
    var s := a + x;
    assert !StartsWithInfinity(s) by { assert s[0] == a[0]; }
    LeadingRunOfConcat(a, x, 10);
    assert s[..|a|] == a && s[|a|..] == x;
    assert ParseFiniteDecimal(s) == Finite(Decimal(ValueIn(a, 10), ExponentPart(x)));
  }

  /** After a digit block, a point hands the rest over to the fraction reader. */
  lemma ParseAtPoint(a: string, t: string)
    requires AllDigitsIn(a, 10)
    ensures ParseFiniteDecimal(a + "." + t) == ParseFraction(a, t)
  {
    var s := a + "." + t;
    assert s == a + ("." + t);
    assert !IsDigitIn('.', 10);
    LeadingRunOfConcat(a, "." + t, 10);
    assert s[..|a|] == a;
    assert s[|a|..] == "." + t;
    assert s[|a|..][1..] == t;
  }

  /** The fraction reader on digits followed by something that is not a digit. */
  lemma ParseFractionDigits(a: string, b: string, x: string)
    requires AllDigitsIn(a, 10) && AllDigitsIn(b, 10)
    requires |a| > 0
    requires EndsDigits(x)
    ensures AllDigitsIn(a + b, 10)
    ensures ParseFraction(a, b + x) == Finite(Decimal(ValueIn(a + b, 10), ExponentPart(x) - |b|))
  {
    AllDigitsConcat(a, b, 10);
    var t := b + x;
    LeadingRunOfConcat(b, x, 10);
    assert t[..|b|] == b && t[|b|..] == x;
  }

  /** Digits, a point and more digits, followed by something that is not a digit. */
  lemma ParseDigitsPointDigits(a: string, b: string, x: string)
    requires |a| > 0 && AllDigitsIn(a, 10) && AllDigitsIn(b, 10)
    requires EndsDigits(x)
    ensures AllDigitsIn(a + b, 10)
    ensures ParseUnsignedDecimal(a + "." + b + x) == Finite(Decimal(ValueIn(a + b, 10), ExponentPart(x) - |b|))
  {
    var s := a + "." + b + x;
    assert !StartsWithInfinity(s) by { assert s[0] == a[0]; }
    assert s == a + "." + (b + x);
    ParseAtPoint(a, b + x);
    ParseFractionDigits(a, b, x);
  }

  lemma DigitIsNotWhiteSpace(c: char)
    requires IsDigitIn(c, 10)
    ensures !IsStrWhiteSpace(c) && c != '-' && c != '+'
  {
  }

  /** A plain decimal with a point ("202.1") reads as its digits scaled by the fraction length. */
  lemma ParsePointDecimal(a: string, b: string, token: string)
    requires |a| > 0 && AllDigitsIn(a, 10) && AllDigitsIn(b, 10)
    requires token == a + "." + b
    ensures AllDigitsIn(a + b, 10)
    ensures ParseUnsignedDecimal(token) == Finite(Decimal(ValueIn(a + b, 10), -|b|))
    ensures ParseFloat(token) == ParseUnsignedDecimal(token)
  {
    assert token[0] == a[0];
    DigitIsNotWhiteSpace(token[0]);
    TrimStartNoWhiteSpace(token);
    assert token == a + "." + b + "";
    ParseDigitsPointDigits(a, b, "");
  }

  /** A minus sign in front of a number negates what follows it. */
  lemma ParseFloatNegative(u: string, token: string)
    requires |u| > 0 && IsDigitIn(u[0], 10)
    requires token == "-" + u
    ensures ParseFloat(token) == Negate(ParseUnsignedDecimal(u))
  {
    TrimStartNoWhiteSpace(token);
    assert token[1..] == u;
  }
}

=== FILE: numbers.dfy ===
/**
 * Exact decimal stand-ins for JavaScript numbers.  The bridge only ever
 * parses decimal text, rounds it to a number of decimal places and compares
 * it with an integer threshold, so every finite value is a decimal
 * mantissa * 10^exponent; binary double rounding is not modelled.
 */
module Numbers {
  import opened Digits

  /** The exact value mantissa * 10^exponent. */
  datatype Decimal = Decimal(mantissa: int, exponent: int)

  /** 10^e as a real, for any integer e. */
  function Scale(e: int): (r: real)
    ensures r > 0.0
  {
    if e >= 0 then Pow10(e) as real else 1.0 / Pow10(-e) as real
  }

  /** The mathematical value a decimal denotes. */
  function Value(d: Decimal): real
  {
    d.mantissa as real * Scale(d.exponent)
  }

  function Neg(d: Decimal): Decimal
  {
    Decimal(-d.mantissa, d.exponent)
  }

  lemma NegValue(d: Decimal)
    ensures Value(Neg(d)) == -Value(d)
  {
  }

  lemma ScaleStep(e: int)
    ensures Scale(e + 1) == 10.0 * Scale(e)
  {
    if e >= 0 {
      assert Pow10(e + 1) == 10 * Pow10(e);
    } else if e == -1 {
      assert Scale(e) == 1.0 / 10.0;
    } else {
      var q := Pow10(-e - 1) as real;
      assert Pow10(-e) == 10 * Pow10(-e - 1);
      assert Scale(e) == 1.0 / (10.0 * q);
      assert Scale(e + 1) == 1.0 / q;
    }
  }

  /** Moving j factors of ten from the mantissa into the exponent keeps the value. */
  lemma {:induction false} MantissaShift(v: int, j: nat, x: int)
    ensures Value(Decimal(v * Pow10(j), x)) == Value(Decimal(v, x + j))
    decreases j
  {
    if j > 0 {
      MantissaShift(v, j - 1, x + 1);
      var w := v * Pow10(j - 1);
      assert v * Pow10(j) == 10 * w;
      TenfoldMantissa(w, x);
    }
  }

  lemma TenfoldMantissa(w: int, x: int)
    ensures Value(Decimal(10 * w, x)) == Value(Decimal(w, x + 1))
  {
    MantissaTimesTen(w, x);
    ExponentPlusOne(w, x);
  }

  lemma MantissaTimesTen(w: int, x: int)
    ensures Value(Decimal(10 * w, x)) == 10.0 * Value(Decimal(w, x))
  {
    RealProduct(10, w);
  }

  lemma ExponentPlusOne(w: int, x: int)
    ensures Value(Decimal(w, x + 1)) == 10.0 * Value(Decimal(w, x))
  {
    ScaleStep(x);
  }

  /** x < t for an integer t, decided in integers by scaling whichever side is whole. */
  predicate LessThanInt(d: Decimal, t: int)
  {
    if d.exponent >= 0 then d.mantissa * Pow10(d.exponent) < t
    else d.mantissa < t * Pow10(-d.exponent)
  }

  lemma RealProduct(a: int, b: int)
    ensures (a * b) as real == a as real * b as real
  {
  }

  /** The integer comparison agrees with the comparison of exact values. */
  lemma LessThanIntIsValueLess(d: Decimal, t: int)
    ensures LessThanInt(d, t) <==> Value(d) < t as real
  {
    var m := d.mantissa;
    if d.exponent >= 0 {
      var p := Pow10(d.exponent);
      RealProduct(m, p);
      assert Value(d) == (m * p) as real;
    } else {
      var q := Pow10(-d.exponent);
      RealProduct(t, q);
      var qr := q as real;
      assert Value(d) == m as real / qr;
      assert (m as real / qr < t as real) <==> (m as real < t as real * qr);
    }
  }

  /** A decimal is negative exactly when its value is. */
  lemma SignOfValue(d: Decimal)
    ensures d.mantissa < 0 <==> Value(d) < 0.0
    ensures d.mantissa == 0 <==> Value(d) == 0.0
  {
  }

  /** Strips trailing zero digits from the mantissa; zero becomes 0 * 10^0. */
  function Normalize(d: Decimal): (n: Decimal)
    ensures Value(n) == Value(d)
    ensures n.mantissa == 0 ==> n == Decimal(0, 0)
    ensures n.mantissa % 10 != 0 || n.mantissa == 0
    ensures (n.mantissa < 0) == (d.mantissa < 0)
    ensures (n.mantissa == 0) == (d.mantissa == 0)
    decreases if d.mantissa < 0 then -d.mantissa else d.mantissa
  {
    if d.mantissa == 0 then Decimal(0, 0)
    else if d.mantissa % 10 == 0 then
      var next := Decimal(d.mantissa / 10, d.exponent + 1);
      assert d.mantissa == 10 * next.mantissa;
      TenfoldMantissa(next.mantissa, d.exponent);
      Normalize(next)
    else d
  }

  /** The number values the bridge can produce: NaN, a finite decimal, or a signed infinity. */
  datatype JsNumber = NaN | Finite(d: Decimal) | Infinity(negative: bool)

  /** The number 0 (JavaScript's `0` and `0.0` are the same value). */
  const Zero: JsNumber := Finite(Decimal(0, 0))

  function FromInt(i: int): JsNumber
  {
    Finite(Decimal(i, 0))
  }

  /** JavaScript `x < t` for an integer t; every comparison with NaN is false. */
  predicate LessThan(x: JsNumber, t: int)
  {
    match x
    case NaN => false
    case Finite(d) => LessThanInt(d, t)
    case Infinity(negative) => negative
  }

  /** JavaScript unary minus. */
  function Negate(x: JsNumber): JsNumber
  {
    match x
    case NaN => NaN
    case Finite(d) => Finite(Neg(d))
    case Infinity(negative) => Infinity(!negative)
  }

  /** The kinds of exception the modelled code can raise. */
  datatype ErrorKind = RangeError

  /** The completion of a JavaScript evaluation: a value or a thrown exception. */
  datatype Completion<+T> = Normal(value: T) | Throw(error: ErrorKind)
}

=== FILE: publisher.dfy ===
/**
 * The MQTT messages of src/server.js as values: createHASensor,
 * pushHASensorData, createHASensors and the availability message.  Each
 * `mqttClient.publish(topic, payload, options)` becomes one Publish record;
 * a call without options does not retain its message.
 */
module Publisher {
  import opened Wrappers
  import opened JsParse
  import opened Config
  import opened FieldDecoder

  datatype Publish = Publish(topic: string, payload: string, retain: bool)

  /** pat occurs in s starting at index i. */
  predicate IsAt(s: string, pat: string, i: nat)
  {
    i + |pat| <= |s| && s[i..i + |pat|] == pat
  }

  /** pat occurs somewhere in s. */
  predicate Contains(s: string, pat: string)
  {
    exists i: nat | i <= |s| :: IsAt(s, pat, i)
  }

  /** The first index at or after k where pat occurs in s, if any. */
  function IndexFrom(s: string, pat: string, k: nat): (r: Option<nat>)
    requires k <= |s|
    ensures r.Some? ==> k <= r.value && IsAt(s, pat, r.value)
    ensures r.Some? ==> forall j: nat | k <= j < r.value :: !IsAt(s, pat, j)
    ensures r.None? ==> forall j: nat | k <= j :: !IsAt(s, pat, j)
    decreases |s| - k
  {
    if IsAt(s, pat, k) then Some(k)
    else if k == |s| then None
    else IndexFrom(s, pat, k + 1)
  }

  /**
   * `s.replace(pat, rep)` with a string pattern: only the first occurrence
   * is replaced, and s is unchanged when pat does not occur.
   */
  function ReplaceFirst(s: string, pat: string, rep: string): (r: string)
  {
    match IndexFrom(s, pat, 0)
    case None => s
    case Some(i) => s[..i] + rep + s[i + |pat|..]
  }

  /** Replacing removes the first occurrence and keeps the text around it. */
  lemma ReplaceFirstSplits(pre: string, pat: string, post: string, rep: string)
    requires forall j: nat | j < |pre| :: !IsAt(pre + pat + post, pat, j)
    ensures ReplaceFirst(pre + pat + post, pat, rep) == pre + rep + post
  {
    var s := pre + pat + post;
    assert s[|pre|..|pre| + |pat|] == pat;
    assert IsAt(s, pat, |pre|);
    var r := IndexFrom(s, pat, 0);
    assert r == Some(|pre|);
    assert s[..|pre|] == pre && s[|pre| + |pat|..] == post;
  }

  /** A text without the pattern is left alone. */
  lemma ReplaceFirstAbsent(s: string, pat: string, rep: string)
    requires !Contains(s, pat)
    ensures ReplaceFirst(s, pat, rep) == s
  {
    var r := IndexFrom(s, pat, 0);
    if r.Some? {
      assert false;
    }
  }

  /** The device model shown in Home Assistant: the mapping file name with its first ".json" removed. */
  function ModelName(deviceMapping: string): string
  {
    ReplaceFirst(deviceMapping, ".json", "")
  }

  /**
   * A mapping file named base + ".json", with no "." in base (such as the
   * default "RPICT7V1.json"), gives the model base.
   */
  lemma ModelNameDropsExtension(base: string)
    requires forall k | 0 <= k < |base| :: base[k] != '.'
    ensures ModelName(base + ".json") == base
  {
    var name := base + ".json" + "";
    assert base + ".json" == name;
    forall j: nat | j < |base|
      ensures !IsAt(name, ".json", j)
    {
      NotAtNonDot(name, j, base[j]);
    }
    ReplaceFirstSplits(base, ".json", "", "");
  }

  /** ".json" cannot start at an index that holds some other character. */
  lemma NotAtNonDot(s: string, j: nat, c: char)
    requires j < |s| && s[j] == c && c != '.'
    ensures !IsAt(s, ".json", j)
  {
    if j + 5 <= |s| {
      assert s[j..j + 5][0] == c;
    }
  }

  /** `${identifier}_${name}`: the sensor's unique id in Home Assistant. */
  function UniqueId(cfg: Config, name: string): string
  {
    cfg.identifier + "_" + name
  }

  /** The topic pushHASensorData publishes a field's readings to. */
  function StateTopic(cfg: Config, name: string): string
  {
    cfg.discoveryPrefix + "/sensor/" + UniqueId(cfg, name)
  }

  /** The topic createHASensor publishes a field's discovery message to. */
  function ConfigTopic(cfg: Config, name: string): string
  {
    cfg.discoveryPrefix + "/sensor/" + cfg.identifier + "_" + name + "/config"
  }

  /** The topic of the online/offline messages. */
  function AvailabilityTopic(cfg: Config): string
  {
    "lechacal/" + cfg.identifier + "/availability"
  }

  /** The discovery topic is the state topic with "/config" appended. */
  lemma ConfigTopicExtendsStateTopic(cfg: Config, name: string)
    ensures ConfigTopic(cfg, name) == StateTopic(cfg, name) + "/config"
  {
  }

  function Spaces(n: nat): (s: string)
    ensures |s| == n
  {
    seq(n, _ => ' ')
  }

  /** One line of the discovery template: indentation, text and the line break. */
  function Line(indent: nat, text: string): string
  {
    Spaces(indent) + text + "\n"
  }

  /** `"key": "value"` as the template writes it. */
  function Entry(key: string, value: string): string
  {
    "\"" + key + "\": \"" + value + "\""
  }

  /** The lines of the discovery template of createHASensor, in order; the last has no line break. */
  function DiscoveryLines(cfg: Config, spec: FieldSpec): seq<string>
  {
    var name := spec.name;
    [ "{\n",
      Line(12, Entry("name", name) + ","),
      Line(12, Entry("unit_of_measurement", ToJsString(spec.unit)) + ","),
      Line(12, Entry("state_topic", cfg.discoveryPrefix + "/sensor/" + cfg.identifier + "_" + name) + ","),
      Line(12, Entry("icon", "mdi:" + ToJsString(spec.icon)) + ","),
      Line(12, Entry("unique_id", cfg.identifier + "_" + name) + ","),
      Line(12, "\"device\": {"),
      Line(16, Entry("name", "LeChacal Energy Monitor") + ","),
      Line(16, "\"identifiers\": [\"LeChacal\", \"Energy\", \"Monitor\"],"),
      Line(16, Entry("manufacturer", "LeChacal") + ","),
      Line(16, Entry("model", ModelName(cfg.deviceMapping)) + ","),
      Line(16, Entry("sw_version", "latest") + ","),
      Line(16, Entry("via_device", "docker-lechacal-homeassistant")),
      Line(12, "},"),
      Line(12, "\"availability\": {"),
      Line(16, Entry("topic", "lechacal/" + cfg.identifier + "/availability") + ","),
      Line(16, Entry("payload_available", "online") + ","),
      Line(16, Entry("payload_not_available", "offline")),
      Line(12, "}"),
      Spaces(8) + "}" ]
  }

  function Concat(parts: seq<string>): string
  {
    if |parts| == 0 then "" else parts[0] + Concat(parts[1..])
  }

  /** The discovery message body: a JSON-looking text built by interpolation, not by a JSON writer. */
  function DiscoveryPayload(cfg: Config, spec: FieldSpec): string
  {
    Concat(DiscoveryLines(cfg, spec))
  }

  /** createHASensor(name, unit, icon): the retained discovery message of one field. */
  function CreateSensor(cfg: Config, spec: FieldSpec): (p: Publish)
    ensures p.retain
    ensures p.topic == StateTopic(cfg, spec.name) + "/config"
  {
    Publish(ConfigTopic(cfg, spec.name), DiscoveryPayload(cfg, spec), true)
  }

  /** pushHASensorData(name, value): the reading as `${value}` on the state topic, not retained. */
  function DataPublish(cfg: Config, name: string, v: FieldValue): (p: Publish)
    ensures !p.retain
  {
    Publish(StateTopic(cfg, name), Stringify(v), false)
  }

  /** An availability message; it is not retained. */
  function AvailabilityPublish(cfg: Config, online: bool): (p: Publish)
    ensures p.topic == AvailabilityTopic(cfg) && !p.retain
    ensures p.payload == "online" || p.payload == "offline"
  {
    Publish(AvailabilityTopic(cfg), if online then "online" else "offline", false)
  }

  /**
   * createHASensors on connect: one retained discovery message per field of
   * the mapping, in key order, then "online" unconditionally.
   */
  function CreateSensors(cfg: Config, schema: seq<FieldSpec>): (ps: seq<Publish>)
    ensures |ps| == |schema| + 1
    ensures forall i | 0 <= i < |schema| ::
              ps[i].retain && ps[i].topic == StateTopic(cfg, schema[i].name) + "/config"
    ensures forall i | 0 <= i < |schema| :: ps[i].payload == DiscoveryPayload(cfg, schema[i])
    ensures ps[|schema|] == AvailabilityPublish(cfg, true)
  {
    seq(|schema|, i requires 0 <= i < |schema| => CreateSensor(cfg, schema[i])) + [AvailabilityPublish(cfg, true)]
  }

  /** The concatenation of parts, taken apart around its k-th part. */
  lemma {:induction false} ConcatAround(parts: seq<string>, k: nat)
    requires k < |parts|
    ensures Concat(parts) == Concat(parts[..k]) + parts[k] + Concat(parts[k + 1..])
  {
    if k == 0 {
      assert parts[..0] == [];
    } else {
      ConcatAround(parts[1..], k - 1);
      assert parts[1..][..k - 1] == parts[1..k];
      assert parts[1..][k - 1] == parts[k];
      assert parts[1..][k..] == parts[k + 1..];
      assert Concat(parts[..k]) == parts[0] + Concat(parts[1..k]) by {
        assert parts[..k][1..] == parts[1..k];
      }
    }
  }

  lemma ContainsMiddle(pre: string, part: string, post: string)
    ensures Contains(pre + part + post, part)
  {
    var s := pre + part + post;
    assert s[|pre|..|pre| + |part|] == part;
    assert IsAt(s, part, |pre|);
  }

  /** Text inside one part of a concatenation occurs in the whole. */
  lemma ConcatHasPart(parts: seq<string>, k: nat, pre: string, part: string, post: string)
    requires k < |parts| && parts[k] == pre + part + post
    ensures Contains(Concat(parts), part)
  {
    ConcatAround(parts, k);
    var before, after := Concat(parts[..k]), Concat(parts[k + 1..]);
    assert Concat(parts) == (before + pre) + part + (post + after);
    ContainsMiddle(before + pre, part, post + after);
  }

  /**
   * The discovery message agrees with the other messages: its state_topic
   * is the topic readings are published to, its unique_id is
   * `${identifier}_${name}`, its availability topic is the one the
   * online/offline messages use, and its own topic is the state topic
   * followed by "/config".
   */
  lemma DiscoveryConsistent(cfg: Config, spec: FieldSpec, v: FieldValue)
    ensures Contains(CreateSensor(cfg, spec).payload, Entry("state_topic", DataPublish(cfg, spec.name, v).topic))
    ensures Contains(CreateSensor(cfg, spec).payload, Entry("unique_id", UniqueId(cfg, spec.name)))
    ensures Contains(CreateSensor(cfg, spec).payload, Entry("topic", AvailabilityPublish(cfg, false).topic))
    ensures CreateSensor(cfg, spec).topic == DataPublish(cfg, spec.name, v).topic + "/config"
  {
    StateTopicInPayload(cfg, spec);
    UniqueIdInPayload(cfg, spec);
    AvailabilityInPayload(cfg, spec);
  }

  lemma StateTopicInPayload(cfg: Config, spec: FieldSpec)
    ensures Contains(DiscoveryPayload(cfg, spec), Entry("state_topic", StateTopic(cfg, spec.name)))
  {
    var lines := DiscoveryLines(cfg, spec);
    var state := Entry("state_topic", StateTopic(cfg, spec.name));
    assert lines[3] == Spaces(12) + state + ",\n";
    ConcatHasPart(lines, 3, Spaces(12), state, ",\n");
  }

  lemma UniqueIdInPayload(cfg: Config, spec: FieldSpec)
    ensures Contains(DiscoveryPayload(cfg, spec), Entry("unique_id", UniqueId(cfg, spec.name)))
  {
    var lines := DiscoveryLines(cfg, spec);
    var id := Entry("unique_id", UniqueId(cfg, spec.name));
    assert lines[5] == Spaces(12) + id + ",\n";
    ConcatHasPart(lines, 5, Spaces(12), id, ",\n");
  }

  lemma AvailabilityInPayload(cfg: Config, spec: FieldSpec)
    ensures Contains(DiscoveryPayload(cfg, spec), Entry("topic", AvailabilityTopic(cfg)))
  {
    var lines := DiscoveryLines(cfg, spec);
    var availability := Entry("topic", AvailabilityTopic(cfg));
    assert lines[15] == Spaces(16) + availability + ",\n";
    ConcatHasPart(lines, 15, Spaces(16), availability, ",\n");
  }

  /**
   * A mapping entry without `unit_of_measurement` or `icon` is still
   * announced: the template interpolates undefined, so the unit reads
   * "undefined" and the icon "mdi:undefined".
   */
  lemma MissingUnitAndIcon(cfg: Config, spec: FieldSpec)
    requires spec.unit.None? && spec.icon.None?
    ensures Contains(DiscoveryPayload(cfg, spec), Entry("unit_of_measurement", "undefined"))
    ensures Contains(DiscoveryPayload(cfg, spec), Entry("icon", "mdi:undefined"))
  {
    var lines := DiscoveryLines(cfg, spec);
    var unit, icon := Entry("unit_of_measurement", "undefined"), Entry("icon", "mdi:undefined");
    assert lines[2] == Spaces(12) + unit + ",\n";
    ConcatHasPart(lines, 2, Spaces(12), unit, ",\n");
    assert lines[4] == Spaces(12) + icon + ",\n";
    ConcatHasPart(lines, 4, Spaces(12), icon, ",\n");
  }

  /**
   * Every discovery message sent on connect names the topic its field's
   * readings go to and the topic of the "online" message sent with it.
   */
  lemma AnnouncedSensorsConsistent(cfg: Config, schema: seq<FieldSpec>, i: nat, v: FieldValue)
    requires i < |schema|
    ensures var ps := CreateSensors(cfg, schema);
            Contains(ps[i].payload, Entry("state_topic", DataPublish(cfg, schema[i].name, v).topic))
            && Contains(ps[i].payload, Entry("topic", ps[|schema|].topic))
            && ps[i].topic == DataPublish(cfg, schema[i].name, v).topic + "/config"
  {
    DiscoveryConsistent(cfg, schema[i], v);
  }
}

=== FILE: tokenizer.dfy ===
/**
 * The line tokenizer `data.split(/[ ,]+/)` of the serial data handler: a
 * line is cut at every maximal run of spaces and commas.  Tabs, carriage
 * returns and every other character stay inside tokens.
 */
module Tokenizer {

  predicate IsSeparator(c: char)
  {
    c == ' ' || c == ','
  }

  predicate NoSeparator(s: string)
  {
    forall i | 0 <= i < |s| :: !IsSeparator(s[i])
  }

  predicate AllSeparators(s: string)
  {
    forall i | 0 <= i < |s| :: IsSeparator(s[i])
  }

  /** The index of the first separator in s, or |s| when there is none. */
  function FirstSeparator(s: string): (i: nat)
    ensures i <= |s| && NoSeparator(s[..i])
    ensures i < |s| ==> IsSeparator(s[i])
  {
    if |s| == 0 || IsSeparator(s[0]) then 0
    else
      var i := 1 + FirstSeparator(s[1..]);
      assert forall k | 1 <= k < i :: s[k] == s[1..][k - 1];
      i
  }

  /** The end of the run of separators that starts at index i (i itself when s[i] is not one). */
  function RunEnd(s: string, i: nat): (j: nat)
    requires i <= |s|
    ensures i <= j <= |s| && AllSeparators(s[i..j])
    ensures j < |s| ==> !IsSeparator(s[j])
    decreases |s| - i
  {
    if i < |s| && IsSeparator(s[i]) then RunEnd(s, i + 1) else i
  }

  /**
   * `s.split(/[ ,]+/)`: the text before the first separator run, then the
   * split of what follows the run.  A leading run gives an empty first
   * token, a trailing run an empty last token, and the empty line the single
   * token "".
   */
  function Split(s: string): (tokens: seq<string>)
    ensures |tokens| >= 1
    ensures forall t <- tokens :: NoSeparator(t)
    decreases |s|
  {
    var i := FirstSeparator(s);
    if i == |s| then
      assert s[..i] == s;
      [s]
    else [s[..i]] + Split(s[RunEnd(s, i)..])
  }

  /** The separator runs that Split cuts at, in order. */
  function Runs(s: string): (runs: seq<string>)
    decreases |s|
  {
    var i := FirstSeparator(s);
    if i == |s| then [] else [s[i..RunEnd(s, i)]] + Runs(s[RunEnd(s, i)..])
  }

  /** tokens[0] + runs[0] + tokens[1] + ... + tokens[|runs|]. */
  function Interleave(tokens: seq<string>, runs: seq<string>): string
    requires |tokens| == |runs| + 1
  {
    if |runs| == 0 then tokens[0]
    else tokens[0] + runs[0] + Interleave(tokens[1..], runs[1..])
  }

  /**
   * tokens and runs cut a line at its maximal separator runs: tokens hold no
   * separator, runs are non-empty and all separators, and only the first
   * and the last token may be empty (an empty inner token would join two
   * runs into one).
   */
  predicate IsSegmentation(tokens: seq<string>, runs: seq<string>)
  {
    && |tokens| == |runs| + 1
    && (forall t <- tokens :: NoSeparator(t))
    && (forall r <- runs :: |r| > 0 && AllSeparators(r))
    && (forall i | 0 < i < |tokens| - 1 :: |tokens[i]| > 0)
  }

  /** Split and Runs describe the line: they are a segmentation that reassembles it. */
  lemma SplitReassembles(s: string)
    ensures IsSegmentation(Split(s), Runs(s))
    ensures Interleave(Split(s), Runs(s)) == s
  {
    SplitRunsCount(s);
    RunsAreRuns(s);
    InnerTokensNonEmpty(s);
    InterleaveSplit(s);
  }

  lemma {:induction false} SplitRunsCount(s: string)
    ensures |Split(s)| == |Runs(s)| + 1
    decreases |s|
  {
    var i := FirstSeparator(s);
    if i < |s| {
      SplitRunsCount(s[RunEnd(s, i)..]);
    }
  }

  lemma {:induction false} RunsAreRuns(s: string)
    ensures forall r <- Runs(s) :: |r| > 0 && AllSeparators(r)
    decreases |s|
  {
    var i := FirstSeparator(s);
    if i < |s| {
      RunsAreRuns(s[RunEnd(s, i)..]);
    }
  }

  lemma {:induction false} InterleaveSplit(s: string)
    requires |Split(s)| == |Runs(s)| + 1
    ensures Interleave(Split(s), Runs(s)) == s
    decreases |s|
  {
    var i := FirstSeparator(s);
    if i == |s| {
      assert s[..i] == s;
    } else {
      var j := RunEnd(s, i);
      var rest := s[j..];
      SplitRunsCount(rest);
      InterleaveSplit(rest);
      var tokens, runs := Split(s), Runs(s);
      assert tokens[0] == s[..i] && tokens[1..] == Split(rest);
      assert runs[0] == s[i..j] && runs[1..] == Runs(rest);
      assert Interleave(tokens, runs) == s[..i] + s[i..j] + rest;
      ThreeParts(s, i, j);
    }
  }

  lemma ThreeParts(s: string, i: nat, j: nat)
    requires i <= j <= |s|
    ensures s[..i] + s[i..j] + s[j..] == s
  {
  }

  /** The first token is the text before the first separator. */
  lemma SplitHead(s: string)
    ensures Split(s)[0] == s[..FirstSeparator(s)]
    ensures |Split(s)| > 1 <==> FirstSeparator(s) < |s|
  {
    if FirstSeparator(s) == |s| {
      assert s[..|s|] == s;
    }
  }

  lemma {:induction false} InnerTokensNonEmpty(s: string)
    ensures forall k | 0 < k < |Split(s)| - 1 :: |Split(s)[k]| > 0
    decreases |s|
  {
    var i := FirstSeparator(s);
    if i < |s| {
      var j := RunEnd(s, i);
      var rest := s[j..];
      InnerTokensNonEmpty(rest);
      assert Split(s)[1..] == Split(rest);
      if |Split(rest)| > 1 {
        SplitHead(rest);
        assert |rest| > 0 && !IsSeparator(rest[0]);
        assert FirstSeparator(rest) > 0;
      }
      forall k | 0 < k < |Split(s)| - 1
        ensures |Split(s)[k]| > 0
      {
        assert Split(s)[k] == Split(rest)[k - 1];
      }
    }
  }

  lemma FirstSeparatorAt(a: string, b: string)
    requires NoSeparator(a) && |b| > 0 && IsSeparator(b[0])
    ensures FirstSeparator(a + b) == |a|
  {
    var ab := a + b;
    var i := FirstSeparator(ab);
    assert forall k | 0 <= k < |a| :: ab[k] == a[k];
    assert IsSeparator(ab[|a|]);
    assert i <= |a|;
  }

  lemma FirstSeparatorNone(a: string)
    requires NoSeparator(a)
    ensures FirstSeparator(a) == |a|
  {
  }

  lemma {:induction false} RunEndAt(s: string, i: nat, j: nat)
    requires i <= j <= |s| && AllSeparators(s[i..j])
    requires j == |s| || !IsSeparator(s[j])
    ensures RunEnd(s, i) == j
    decreases j - i
  {
    if i < j {
      assert s[i] == s[i..j][0];
      assert s[i + 1..j] == s[i..j][1..];
      RunEndAt(s, i + 1, j);
    }
  }

  /**
   * Split is the only segmentation: whenever a line is assembled from
   * separator-free tokens and maximal separator runs, Split recovers exactly
   * those tokens.
   */
  lemma {:induction false} SplitUnique(tokens: seq<string>, runs: seq<string>)
    requires IsSegmentation(tokens, runs)
    ensures Split(Interleave(tokens, runs)) == tokens
    decreases |runs|
  {
    var s := Interleave(tokens, runs);
    if |runs| == 0 {
      assert tokens[0] in tokens;
      NoSeparatorOneToken(s);
      assert tokens == [tokens[0]];
    } else {
      var t, r := tokens[0], runs[0];
      assert t in tokens && r in runs;
      var rest := Interleave(tokens[1..], runs[1..]);
      assert s == t + (r + rest);
      FirstSeparatorAt(t, r + rest);
      SegmentationTail(tokens, runs);
      RestStartsWithToken(tokens, runs);
      ThreePieces(t, r, rest);
      RunEndAt(s, |t|, |t| + |r|);
      SplitUnique(tokens[1..], runs[1..]);
      SplitStep(s, |t|, |t| + |r|);
      HeadTail(tokens);
    }
  }

  lemma HeadTail<T>(xs: seq<T>)
    requires |xs| > 0
    ensures xs == [xs[0]] + xs[1..]
  {
  }

  /** Slices t + (r + rest) back into t, r and rest. */
  lemma ThreePieces(t: string, r: string, rest: string)
    ensures var s := t + (r + rest);
            s[..|t|] == t && s[|t|..|t| + |r|] == r && s[|t| + |r|..] == rest
  {
  }

  /** One unfolding of Split at its first run. */
  lemma SplitStep(s: string, i: nat, j: nat)
    requires i < |s| && FirstSeparator(s) == i && i <= j <= |s| && RunEnd(s, i) == j
    ensures Split(s) == [s[..i]] + Split(s[j..])
  {
  }

  lemma SegmentationTail(tokens: seq<string>, runs: seq<string>)
    requires IsSegmentation(tokens, runs) && |runs| > 0
    ensures IsSegmentation(tokens[1..], runs[1..])
  {
    forall x | x in tokens[1..] ensures NoSeparator(x) { assert x in tokens; }
    forall x | x in runs[1..] ensures |x| > 0 && AllSeparators(x) { assert x in runs; }
    forall k | 0 < k < |tokens[1..]| - 1 ensures |tokens[1..][k]| > 0 { assert tokens[1..][k] == tokens[k + 1]; }
  }

  /** After the first run comes the second token, which is non-empty unless it is the last. */
  lemma RestStartsWithToken(tokens: seq<string>, runs: seq<string>)
    requires IsSegmentation(tokens, runs) && |runs| > 0
    ensures var rest := Interleave(tokens[1..], runs[1..]);
            |rest| == 0 || !IsSeparator(rest[0])
  {
    var rest := Interleave(tokens[1..], runs[1..]);
    if |rest| > 0 {
      var t1 := tokens[1];
      assert t1 in tokens;
      if |runs| == 1 {
        assert rest == t1;
      } else {
        assert |t1| > 0;
        assert rest == t1 + runs[1] + Interleave(tokens[2..], runs[2..]);
        assert rest[0] == t1[0];
      }
    }
  }

  /** A line without spaces or commas is one token: tabs do not split. */
  lemma NoSeparatorOneToken(s: string)
    requires NoSeparator(s)
    ensures Split(s) == [s]
  {
    FirstSeparatorNone(s);
    assert s[..|s|] == s;
  }

  /** Tabs stay inside a token: "11\t0.0" is one token where "11 0.0" is two. */
  lemma TabIsNotSeparator(a: string, b: string)
    requires NoSeparator(a) && NoSeparator(b)
    ensures Split(a + "\t" + b) == [a + "\t" + b]
    ensures Split(a + " " + b) == [a, b]
  {
    var s := a + "\t" + b;
    forall i | 0 <= i < |s|
      ensures !IsSeparator(s[i])
    {
      if i < |a| {
        assert s[i] == a[i];
      } else if i > |a| {
        assert s[i] == b[i - |a| - 1];
      }
    }
    NoSeparatorOneToken(s);
    SplitTwo(a, b);
  }

  /** Two tokens around one space. */
  lemma SplitTwo(a: string, b: string)
    requires NoSeparator(a) && NoSeparator(b)
    ensures Split(a + " " + b) == [a, b]
  {
    assert Interleave([a, b], [" "]) == a + " " + Interleave([b], []);
    SplitUnique([a, b], [" "]);
  }

  /**
   * A leading separator yields an empty first token, so every field moves
   * one position to the right.
   */
  lemma LeadingSeparatorShifts(c: char, s: string)
    requires IsSeparator(c) && (|s| == 0 || !IsSeparator(s[0]))
    ensures Split([c] + s) == [""] + Split(s)
  {
    var line := [c] + s;
    assert FirstSeparator(line) == 0;
    assert line[0..1] == [c];
    RunEndAt(line, 0, 1);
    assert line[1..] == s;
  }

  /** `tokens.join(sep)` for a single separator run used between every pair. */
  function Join(tokens: seq<string>, sep: string): string
    requires |tokens| >= 1
  {
    Interleave(tokens, seq(|tokens| - 1, _ => sep))
  }

  /** Joining non-empty separator-free tokens with spaces and splitting again gives them back. */
  lemma SplitJoin(tokens: seq<string>)
    requires |tokens| >= 1
    requires forall t <- tokens :: |t| > 0 && NoSeparator(t)
    ensures Split(Join(tokens, " ")) == tokens
  {
    var runs := seq(|tokens| - 1, _ => " ");
    assert forall r <- runs :: r == " ";
    assert forall i | 0 < i < |tokens| - 1 :: tokens[i] in tokens;
    SplitUnique(tokens, runs);
  }

  /**
   * The SplitMatcher loop of RegExp.prototype[@@split] (ECMA-262 section
   * 22.2.6.14) for /[ ,]+/: scan q forward from the end p of the last
   * match; where the pattern matches at q, emit s[p..q] and continue after
   * the match; finally emit the tail.
   */
  method SplitByMatcher(s: string) returns (tokens: seq<string>)
    ensures tokens == Split(s)
  {
    tokens := [];
    var p, q := 0, 0;
    while q < |s|
      invariant 0 <= p <= q <= |s|
      invariant NoSeparator(s[p..q])
      invariant tokens + Split(s[p..]) == Split(s)
      decreases |s| - q
    {
      if !IsSeparator(s[q]) {
        ExtendToken(s, p, q);
        q := q + 1;
      } else {
        var e := RunEnd(s, q);
        MatcherStep(s, tokens, p, q);
        tokens := tokens + [s[p..q]];
        p, q := e, e;
      }
    }
    MatcherTail(s, tokens, p);
    tokens := tokens + [s[p..]];
  }

  /** A non-separator at q extends the token that started at p. */
  lemma ExtendToken(s: string, p: nat, q: nat)
    requires p <= q < |s| && NoSeparator(s[p..q]) && !IsSeparator(s[q])
    ensures NoSeparator(s[p..q + 1])
  {
    assert s[p..q + 1] == s[p..q] + [s[q]];
  }

  /** Emitting the token before the run at q keeps the matcher's invariant. */
  lemma MatcherStep(s: string, tokens: seq<string>, p: nat, q: nat)
    requires p <= q < |s| && NoSeparator(s[p..q]) && IsSeparator(s[q])
    requires tokens + Split(s[p..]) == Split(s)
    ensures q < RunEnd(s, q) <= |s| && NoSeparator(s[RunEnd(s, q)..RunEnd(s, q)])
    ensures (tokens + [s[p..q]]) + Split(s[RunEnd(s, q)..]) == Split(s)
  {
    assert s[q..q + 1] == [s[q]];
    SplitAtRun(s, p, q);
    AppendAssociates(tokens, [s[p..q]], Split(s[RunEnd(s, q)..]));
  }

  lemma AppendAssociates<T>(a: seq<T>, b: seq<T>, c: seq<T>)
    ensures (a + b) + c == a + (b + c)
  {
  }

  /** The text after the last run has no separator and is the final token. */
  lemma MatcherTail(s: string, tokens: seq<string>, p: nat)
    requires p <= |s| && NoSeparator(s[p..|s|])
    requires tokens + Split(s[p..]) == Split(s)
    ensures tokens + [s[p..]] == Split(s)
  {
    assert s[p..] == s[p..|s|];
    NoSeparatorOneToken(s[p..]);
  }

  /** One step of the matcher: the suffix from p splits at the run that starts at q. */
  lemma SplitAtRun(s: string, p: nat, q: nat)
    requires p <= q < |s| && NoSeparator(s[p..q]) && IsSeparator(s[q])
    ensures Split(s[p..]) == [s[p..q]] + Split(s[RunEnd(s, q)..])
  {
    SuffixFacts(s, p, q);
    SplitStepInto(s[p..], q - p, RunEnd(s, q) - p, s[p..q], s[RunEnd(s, q)..]);
  }

  /** Where the suffix from p has its first separator and its run end, and its pieces. */
  lemma SuffixFacts(s: string, p: nat, q: nat)
    requires p <= q < |s| && NoSeparator(s[p..q]) && IsSeparator(s[q])
    ensures q - p < |s[p..]| && q <= RunEnd(s, q)
    ensures FirstSeparator(s[p..]) == q - p && RunEnd(s[p..], q - p) == RunEnd(s, q) - p
    ensures s[p..][..q - p] == s[p..q] && s[p..][RunEnd(s, q) - p..] == s[RunEnd(s, q)..]
  {
    SuffixFirstSeparator(s, p, q);
    SuffixRunEnd(s, p, q);
    SuffixPieces(s, p, q, RunEnd(s, q));
  }

  lemma SuffixFirstSeparator(s: string, p: nat, q: nat)
    requires p <= q < |s| && NoSeparator(s[p..q]) && IsSeparator(s[q])
    ensures FirstSeparator(s[p..]) == q - p
  {
    assert s[p..] == s[p..q] + s[q..];
    FirstSeparatorAt(s[p..q], s[q..]);
  }

  lemma SuffixRunEnd(s: string, p: nat, q: nat)
    requires p <= q < |s|
    ensures RunEnd(s[p..], q - p) == RunEnd(s, q) - p
  {
    var t := s[p..];
    var j := RunEnd(s, q);
    assert t[q - p..j - p] == s[q..j];
    assert j - p < |t| ==> t[j - p] == s[j];
    RunEndAt(t, q - p, j - p);
  }

  /** SplitStep, with the token and the remainder named by the caller. */
  lemma SplitStepInto(t: string, i: nat, j: nat, head: string, rest: string)
    requires i < |t| && FirstSeparator(t) == i && i <= j <= |t| && RunEnd(t, i) == j
    requires head == t[..i] && rest == t[j..]
    ensures Split(t) == [head] + Split(rest)
  {
    SplitStep(t, i, j);
  }

  /** The pieces of the suffix from p are the pieces of s, shifted by p. */
  lemma SuffixPieces(s: string, p: nat, q: nat, j: nat)
    requires p <= q <= j <= |s|
    ensures s[p..][..q - p] == s[p..q] && s[p..][j - p..] == s[j..]
  {
  }
}

=== FILE: wrappers.dfy ===
/** An optional value; `None` stands for JavaScript's `undefined`. */
module Wrappers {

  /** A JavaScript value that may be `undefined`: `None` stands for `undefined`. */
  datatype Option<+T> = None | Some(value: T)
}
